=== FILE: README.md ===
# ShareIt core, modelled in Dafny

ShareIt is a service where users share items with each other. Owners put
items up for rent. Other users book an item for a period, and the owner
approves or rejects each booking. A user who cannot find an item posts an
item request, and owners answer it by offering items.

This project models the business core of that service as pure Dafny
functions over immutable state:

- the booking engine: creating a booking, approving or rejecting it, reading
  it, and the renter's and the owner's listings by booking state;
- the two native queries that attach the last and the next booking to items;
- the booking mapper and its fixed timestamp pattern `yyyy-MM-dd'T'HH:mm:ss`;
- the server's lookup helpers (`RepositoryUtil`);
- the user services of both snapshots: the first one over an in-memory store,
  the server one over a JPA table;
- the in-memory user store;
- the item service of the first snapshot and both in-memory item stores;
- the server's item request service.

State is modelled as follows:

- A JPA table is a `seq` of rows (module `Tables`). `findById` returns the first
  row with the key. `save` overwrites or appends. An identity column hands out
  one above the largest key.
- A hand-written `HashMap<Long, T>` store is a `map<int, T>` (module `Keyed`).
  Iterating over its values visits them in ascending key order.
- Every mutating operation returns an `Outcome`: the state it leaves behind,
  and either its result or the exception it throws (`Error`). So "nothing
  changes on failure" is part of each contract.
- Date-times are `Calendar.Instant`: whole seconds on one timeline, for the
  years 0001 to 9999 that the four-digit year pattern can render.
  `Calendar.BeforeIffEarlier` shows that comparing `LocalDateTime` values field
  by field is the same as comparing their instants.
- The clock reading `now` is always a parameter.

Module layout follows the source:

- `BookingService`, `BookingQuery` (the QueryDSL conditions and `findAll`),
  `BookingRepository`, `BookingMapper`, `Timestamp` and `Calendar`;
- `RepositoryUtil`;
- `UserStorage` and `UserService` (first snapshot), `ServerUserService`;
- `ItemStorage` (the server's in-memory store), `SrcItemStorage` (the first
  snapshot's store) and `ItemService`;
- `ItemRequestService`;
- the shared `Entities`, `Wrappers`, `Seqs`, `Keyed`, `Tables` and `Text`.

Where the code and the documented behaviour differ, the model follows the
code:

- A booking whose start equals its end is accepted. The check uses
  `isAfter` and `isBefore`, so a zero-length period passes
  (`BookingService.InstantPeriodAccepted`).
- The "last booking" query also returns bookings that have already ended,
  not only current ones (`BookingRepository.IsLastCandidate`).
- `processBookingByOwner` does not check that the booking is still WAITING.
  The service tests expect such a check. The code's behaviour is
  `BookingService.ProcessBookingByOwner`. The guarded behaviour the tests
  expect is modelled separately as
  `BookingService.ProcessWaitingBookingByOwner`.
- `createBooking` never sets a status: a new booking has none (`None`), not
  WAITING.
- The renter's listing does not check that the user exists. An unknown user
  gets an empty list.
- The first snapshot's `UserStorage` interface answers lookups with
  `Optional`, while its in-memory implementation throws `NotFound`. The
  service is modelled against the interface it is written to. The store is
  modelled as it is implemented.
- In the first snapshot, `Booking` declares its period as `LocalDate`, while
  the mapper reads and writes `LocalDateTime` with a time of day. The model
  uses the mapper's date-time.
- `LocalDateTime.parse` reads a timestamp with the default `SMART`
  resolver. The model reads the pattern's 19-character shape with an
  unsigned four-digit year (`java.time` also reads a year written as '+'
  and five or more digits; see "## Left out"), and each field must lie
  in its own range, with the day of month up to 31 and the hour up to 24. A
  day past the end of its month becomes the month's last day, so
  `2023-02-30T10:00:00` reads as 28 February. `24:00:00` is the midnight
  that starts the next day. Text that does not resolve makes `parse` throw,
  and that failure is the `MalformedTimestamp` error. A timestamp that
  resolves but is not canonical (its fields as written are not a valid
  date-time) renders back differently from what the client sent.
- The item request mapper sets only description and requestor, and the
  `created` column has no generated value. A request the service creates
  therefore has no creation time (`None`), both in the table and in the
  returned request.

## Model

| member | source | states |
|---|---|---|
| UserStorage.Create | src/main/java/ru/practicum/shareit/user/storage/InMemoryUserStorage.java:16-23 | the new user gets an id no stored user has, exactly one above the largest (1 in an empty store), keeps name and email, and every stored entry is untouched |
| UserStorage.Update | src/main/java/ru/practicum/shareit/user/storage/InMemoryUserStorage.java:26-32 | the user is stored under its id, inserted or overwritten, and no other entry changes |
| Keyed.GetById | src/main/java/ru/practicum/shareit/user/storage/InMemoryUserStorage.java:35-43 | succeeds exactly for a stored id, with the stored entry; otherwise NotFound. The server item store's `getById` (server/src/main/java/ru/practicum/shareit/item/storage/InMemoryItemStorage.java, lines 25-34) is the same code and is modelled by the same member |
| UserStorage.GetByEmail | src/main/java/ru/practicum/shareit/user/storage/InMemoryUserStorage.java:46-59 | finds a stored user with that email; fails NotFound exactly when nobody has it |
| UserStorage.GetByEmailFindsSmallestId | src/main/java/ru/practicum/shareit/user/storage/InMemoryUserStorage.java:47-50 | with every user under its own id, the holder found first is the holder with the smallest id |
| UserStorage.DeleteById | src/main/java/ru/practicum/shareit/user/storage/InMemoryUserStorage.java:62-68 | a missing id fails NotFound and changes nothing; otherwise exactly that key disappears |
| Keyed.NewId | src/main/java/ru/practicum/shareit/user/storage/InMemoryUserStorage.java:70-74 | the generated id is in no use, above every id in use, one above the largest, and 1 for an empty store |
| Keyed.ValuesInKeyOrder | src/main/java/ru/practicum/shareit/user/storage/InMemoryUserStorage.java:47-49 | iteration over the values visits exactly the stored values, one per key |
| Keyed.ValuesNoDup | server/src/main/java/ru/practicum/shareit/item/storage/InMemoryItemStorage.java:54-60 | with every entry under its own id, iterating over `values()` meets no value twice |
| UserService.Get | src/main/java/ru/practicum/shareit/user/service/UserServiceImpl.java:63-71 | succeeds exactly for a stored id, with that user; otherwise NotFound |
| UserService.CheckEmailRepeat | src/main/java/ru/practicum/shareit/user/service/UserServiceImpl.java:73-79 | fails EmailRepeated only when a user other than the one being saved holds the email, and, with distinct emails, always then; for a user not yet saved, any holder counts |
| UserService.DistinctAfterPut | src/main/java/ru/practicum/shareit/user/service/UserServiceImpl.java:73-79 | storing a user whose email no other key holds keeps all emails distinct |
| UserService.Create | src/main/java/ru/practicum/shareit/user/service/UserServiceImpl.java:27-31 | fails EmailRepeated, changing nothing, exactly when the email is taken; otherwise adds the user under a fresh id, leaves every other user as it was, and keeps emails distinct |
| UserService.Update | src/main/java/ru/practicum/shareit/user/service/UserServiceImpl.java:40-54 | NotFound exactly for an unknown user; EmailRepeated only when another user holds the new email; on success present fields replace stored ones under the same id; emails stay distinct and nothing changes on failure |
| UserService.OnlyHolder | src/main/java/ru/practicum/shareit/user/service/UserServiceImpl.java:73-79 | with distinct emails no other user holds a stored user's own email |
| UserService.KeepingOwnEmailNeverConflicts | src/main/java/ru/practicum/shareit/user/service/UserServiceImpl.java:44-47 | resubmitting one's own email in an update never fails |
| UserService.Delete | src/main/java/ru/practicum/shareit/user/service/UserServiceImpl.java:57-61 | NotFound, changing nothing, exactly for an unknown user; otherwise returns the prior user and removes exactly that entry; every entry stays under its own id and emails stay distinct |
| ServerUserService.Create | server/src/main/java/ru/practicum/shareit/user/service/UserServiceImpl.java:22-25 | always succeeds, appending the user with the given name and email under an id above every stored id; user ids stay unique |
| ServerUserService.CreateSkipsEmailCheck | server/src/main/java/ru/practicum/shareit/user/service/UserServiceImpl.java:22-25 | a user with an email already stored is still created, as a second row with another id |
| ServerUserService.Get | server/src/main/java/ru/practicum/shareit/user/service/UserServiceImpl.java:29-32 | NotFound exactly when no row has the id; otherwise a stored user with that id |
| ServerUserService.Update | server/src/main/java/ru/practicum/shareit/user/service/UserServiceImpl.java:35-47 | NotFound, changing nothing, exactly for an unknown user; otherwise the stored user with present fields replaced overwrites every row with its id, and other rows stay; user ids stay unique |
| ServerUserService.Delete | server/src/main/java/ru/practicum/shareit/user/service/UserServiceImpl.java:50-54 | NotFound, changing nothing, exactly for an unknown user; otherwise returns the stored user and leaves exactly the rows with other ids; user ids stay unique |
| RepositoryUtil.GetUserWithCheck | server/src/main/java/ru/practicum/shareit/util/RepositoryUtil.java:13-16 | a stored user with the id, or NotFound exactly when there is none |
| RepositoryUtil.GetItemWithCheck | server/src/main/java/ru/practicum/shareit/util/RepositoryUtil.java:18-21 | a stored item with the id, or NotFound exactly when there is none |
| RepositoryUtil.CheckOwnerRightsForItem | server/src/main/java/ru/practicum/shareit/util/RepositoryUtil.java:23-27 | passes exactly when the user owns the item, else IllegalOwner |
| RepositoryUtil.GetItemRequestWithCheck | server/src/main/java/ru/practicum/shareit/util/RepositoryUtil.java:29-32 | a stored request with the id, or NotFound exactly when there is none |
| RepositoryUtil.GetUserFindsStored | server/src/main/java/ru/practicum/shareit/util/RepositoryUtil.java:13-16 | under the primary-key constraint the lookup by a stored user's id returns that very user |
| Tables.Find | server/src/main/java/ru/practicum/shareit/util/RepositoryUtil.java:14 | `findById` returns a row with the key, and nothing exactly when no row has it |
| Tables.Save | server/src/main/java/ru/practicum/shareit/user/service/UserServiceImpl.java:46 | `save` overwrites the rows with the entity's key, keeping the others, or appends the entity when no row has its key; unique keys stay unique |
| Tables.Delete | server/src/main/java/ru/practicum/shareit/user/service/UserServiceImpl.java:52 | `deleteById` keeps exactly the rows with another key; a missing key changes nothing; unique keys stay unique |
| Tables.NextKey | server/src/main/java/ru/practicum/shareit/user/service/UserServiceImpl.java:24 | the identity value is positive, above every stored key, and one above the largest or 1 |
| ItemStorage.Create | server/src/main/java/ru/practicum/shareit/item/storage/InMemoryItemStorage.java:15-23 | the item gets an id in no use, one above the largest (1 when empty), keeps every other field, and stored entries are untouched |
| ItemStorage.Update | server/src/main/java/ru/practicum/shareit/item/storage/InMemoryItemStorage.java:36-43 | the item is stored under its id, inserted or overwritten; other entries unchanged |
| ItemStorage.DeleteById | server/src/main/java/ru/practicum/shareit/item/storage/InMemoryItemStorage.java:45-52 | a missing id fails NotFound and changes nothing; otherwise exactly that key disappears |
| ItemStorage.GetByOwner | server/src/main/java/ru/practicum/shareit/item/storage/InMemoryItemStorage.java:54-60 | exactly the stored items of the owner, never more than the store holds, and with every entry under its own id, each item once |
| ItemStorage.Search | server/src/main/java/ru/practicum/shareit/item/storage/InMemoryItemStorage.java:62-69 | exactly the stored available items whose name or description contains the text ignoring case, never an unavailable item, and with every entry under its own id, each item once |
| ItemStorage.EmptySearchFindsAllAvailable | server/src/main/java/ru/practicum/shareit/item/storage/InMemoryItemStorage.java:64-68 | the empty text finds every available item |
| ItemStorage.SearchIgnoresCase | server/src/main/java/ru/practicum/shareit/item/storage/InMemoryItemStorage.java:64-68 | searching for the lower-cased text gives the same list as searching for the text |
| Text.Contains | server/src/main/java/ru/practicum/shareit/item/storage/InMemoryItemStorage.java:66-67 | `contains` holds exactly when the needle occurs at some position of the haystack |
| SrcItemStorage.Get | src/main/java/ru/practicum/shareit/item/storage/InMemoryItemStorage.java:23-30 | the stored item for a stored id, and nothing (never an error) otherwise |
| SrcItemStorage.Delete | src/main/java/ru/practicum/shareit/item/storage/InMemoryItemStorage.java:39-42 | the key disappears if present and the rest stays; a missing key leaves the store as it was |
| SrcItemStorage.GetAgreesWithGetById | src/main/java/ru/practicum/shareit/item/storage/InMemoryItemStorage.java:23-30 | the optional lookup is empty exactly when the server store's lookup fails NotFound, and otherwise agrees with it |
| SrcItemStorage.DeleteAgreesWithDeleteById | src/main/java/ru/practicum/shareit/item/storage/InMemoryItemStorage.java:39-42 | the silent deletion leaves the store the server store's failing deletion leaves |
| ItemService.Create | src/main/java/ru/practicum/shareit/item/service/ItemServiceImpl.java:22-27 | NotFound, changing nothing, exactly for an unknown owner; otherwise the item, owned by that user, is stored under a fresh id with its other fields kept and other entries untouched; every entry stays under its own id |
| ItemService.Get | src/main/java/ru/practicum/shareit/item/service/ItemServiceImpl.java:78-86 | the stored item for a stored id; NotFound exactly otherwise |
| ItemService.OwnedItem | src/main/java/ru/practicum/shareit/item/service/ItemServiceImpl.java:35-38 | NotFound exactly when the user or the item is missing, IllegalOwner exactly when both exist and the user is not the owner, otherwise the stored item |
| ItemService.Update | src/main/java/ru/practicum/shareit/item/service/ItemServiceImpl.java:34-53 | fails exactly as the guards do, changing nothing; otherwise present name, description and availability replace the stored ones, id, owner and request stay, and only that entry changes |
| ItemService.Delete | src/main/java/ru/practicum/shareit/item/service/ItemServiceImpl.java:55-62 | fails exactly as the guards do, changing nothing; otherwise returns the stored item and removes exactly its key; every entry stays under its own id |
| ItemService.Search | src/main/java/ru/practicum/shareit/item/service/ItemServiceImpl.java:64-71 | a missing or blank text finds nothing; any other text finds exactly the stored available items matching it, each once when every entry is under its own id |
| ItemService.EmptyTextShortCircuits | src/main/java/ru/practicum/shareit/item/service/ItemServiceImpl.java:66-68 | the blank guard matters: the empty text finds nothing, though the store alone would return every available item |
| ItemService.GetByOwner | src/main/java/ru/practicum/shareit/item/service/ItemServiceImpl.java:73-76 | exactly the owner's stored items, with no user check: an owner with no items, known or not, gets an empty list; each item once when every entry is under its own id |
| ItemRequestService.AnswersTo | server/src/main/java/ru/practicum/shareit/request/service/ItemRequestServiceImpl.java:69-77 | the responses grouped under a request id are exactly the renderings of the items answering that request, and are empty exactly when none answers |
| ItemRequestService.AnswersToCons | server/src/main/java/ru/practicum/shareit/request/service/ItemRequestServiceImpl.java:69-77 | an item in front contributes its rendering, in front, exactly when it answers the request |
| ItemRequestService.AnswersToConcat | server/src/main/java/ru/practicum/shareit/request/service/ItemRequestServiceImpl.java:69-77 | grouping keeps encounter order: the answers in two runs of items are those of the first run followed by those of the second |
| ItemRequestService.CreateItemRequestDtoList | server/src/main/java/ru/practicum/shareit/request/service/ItemRequestServiceImpl.java:68-86 | one entry per request, in order, carrying the request's id, description and creation time; the item list is absent exactly when no item answers, and otherwise holds the answers (in table order) |
| ItemRequestService.CreateRequest | server/src/main/java/ru/practicum/shareit/request/service/ItemRequestServiceImpl.java:31-35 | NotFound, changing nothing, exactly for an unknown user; otherwise one request by that user, with the given description and no creation time, is appended under an id above every stored id and returned with no creation time and no items; request ids stay unique |
| ItemRequestService.CreatedRankOrder | server/src/main/java/ru/practicum/shareit/request/ItemRequest.java:44-45 | the sort key orders present creation times as time does and places a missing one below every present one |
| ItemRequestService.OwnRequests | server/src/main/java/ru/practicum/shareit/request/service/ItemRequestServiceImpl.java:40 | exactly the user's requests, each as often as stored, newest first, with those lacking a creation time last; empty exactly when the user has none |
| ItemRequestService.OthersRequests | server/src/main/java/ru/practicum/shareit/request/service/ItemRequestServiceImpl.java:52 | exactly the other users' requests, each as often as stored, newest first, with those lacking a creation time last; empty exactly when there are none |
| ItemRequestService.OwnAndOthersPartition | server/src/main/java/ru/practicum/shareit/request/service/ItemRequestServiceImpl.java:38-59 | one's own requests and the others' together are every stored request exactly once |
| ItemRequestService.GetRequestsForOwner | server/src/main/java/ru/practicum/shareit/request/service/ItemRequestServiceImpl.java:38-47 | NotFound exactly for an unknown user; otherwise the user's requests newest first with their answers, empty exactly when the user has none |
| ItemRequestService.GetAllRequests | server/src/main/java/ru/practicum/shareit/request/service/ItemRequestServiceImpl.java:50-59 | NotFound exactly for an unknown user; otherwise the others' requests newest first with their answers, empty exactly when there are none |
| ItemRequestService.GetRequestById | server/src/main/java/ru/practicum/shareit/request/service/ItemRequestServiceImpl.java:62-66 | NotFound exactly when no request has the id; otherwise that request's fields, the creation time as stored (possibly none), with a list that is exactly `AnswersTo`: one rendering per answering row, in table order; no list when none answers it |
| BookingService.CreateBooking | src/main/java/ru/practicum/shareit/booking/service/BookingServiceImpl.java:44-62 | NotFound for an unknown booker, then for an unknown item; MalformedTimestamp for a period that does not parse; BookingUnavailable exactly when the period runs backwards or into the past or the item is unavailable; on success one booking is appended with a fresh id, the booker, the item, no status and the instants the request's timestamps parse to; nothing changes on failure |
| BookingService.InstantPeriodAccepted | src/main/java/ru/practicum/shareit/booking/service/BookingServiceImpl.java:50-55 | the date check refuses exactly the periods not satisfying now <= start <= end, so a zero-length period starting now passes |
| BookingService.ProcessBookingByOwner | src/main/java/ru/practicum/shareit/booking/service/BookingServiceImpl.java:64-77 | NotFound exactly when no booking has the id; BookingUnavailable when the acting user does not own its item; otherwise only the found row's status changes, to APPROVED or REJECTED, whatever it was |
| BookingService.ProcessKeepsIdsUnique | src/main/java/ru/practicum/shareit/booking/service/BookingServiceImpl.java:64-77 | approving or rejecting, guarded or not, keeps booking ids unique |
| BookingService.FirstWithIdFound | src/main/java/ru/practicum/shareit/booking/service/BookingServiceImpl.java:126-129 | the lookup by id finds the first row carrying the id |
| BookingService.StatusChangeKeepsFirst | src/main/java/ru/practicum/shareit/booking/service/BookingServiceImpl.java:74-75 | saving the new status keeps the booking the row found under its id |
| BookingService.ProcessWaitingBookingByOwner | server/src/test/java/ru/practicum/shareit/booking/service/BookingServiceTest.java:106-120 | as ProcessBookingByOwner, but a booking of the acting owner that is not WAITING fails BookingUnavailable and keeps its status |
| BookingService.NotWaitingRefused | server/src/test/java/ru/practicum/shareit/booking/service/BookingServiceTest.java:106-120 | the guarded approval refuses the owner's booking once it is no longer WAITING |
| BookingService.DecisionIsFinal | server/src/test/java/ru/practicum/shareit/booking/service/BookingServiceTest.java:106-120 | after a successful guarded approval or rejection, a second one on the same booking fails BookingUnavailable |
| BookingService.GetBooking | src/main/java/ru/practicum/shareit/booking/service/BookingServiceImpl.java:79-90 | NotFound exactly when no booking has the id; IllegalOwner when the user is neither the booker nor the item's owner; otherwise a rendering of a booking with the id that the user may read |
| BookingService.GetBookingRights | src/main/java/ru/practicum/shareit/booking/service/BookingServiceImpl.java:79-90 | with unique ids, a stored booking is readable exactly by its booker and its item's owner, as its own rendering |
| BookingService.BookerReadsOnlyRow | src/main/java/ru/practicum/shareit/booking/service/BookingServiceImpl.java:81-89 | the booker reading the only row with an id sees that row's rendering |
| BookingService.FreshRowIsOnly | src/main/java/ru/practicum/shareit/booking/service/BookingServiceImpl.java:60 | a row saved under a fresh identity value is the only row with its id |
| BookingService.CreatedBookingReadable | src/main/java/ru/practicum/shareit/booking/service/BookingServiceImpl.java:44-90 | right after creation the booker can read the booking back and sees what creation returned |
| BookingService.CreateKeepsIdsUnique | src/main/java/ru/practicum/shareit/booking/service/BookingServiceImpl.java:44-62 | creating a booking keeps booking ids unique, the invariant `GetBookingRights` assumes |
| BookingService.ToOrderedDtoList | src/main/java/ru/practicum/shareit/booking/service/BookingServiceImpl.java:139-143 | one rendering per booking, at the same position |
| BookingService.RenderedMembers | src/main/java/ru/practicum/shareit/booking/service/BookingServiceImpl.java:139-143 | the rendered listing shows exactly the renderings of the selected bookings |
| BookingService.RenderedOrder | src/main/java/ru/practicum/shareit/booking/service/BookingServiceImpl.java:139-143 | bookings ordered by end, latest first, render to timestamps read back in the same order |
| BookingService.RenterBookings | src/main/java/ru/practicum/shareit/booking/service/BookingServiceImpl.java:95-102 | exactly the user's bookings in the state, each as often as stored, latest end first |
| BookingService.GetAllBookingsWithState | src/main/java/ru/practicum/shareit/booking/service/BookingServiceImpl.java:92-104 | exactly the renderings of the user's bookings in the state, one per row, latest end first; no user check |
| BookingService.RenterStateIsSubsequence | src/main/java/ru/practicum/shareit/booking/service/BookingServiceImpl.java:95-102 | each state's renter listing is the ALL listing narrowed to that state, order kept |
| BookingService.OwnedItemIds | src/main/java/ru/practicum/shareit/booking/service/BookingServiceImpl.java:109 | exactly the ids of the owner's items; empty exactly when the owner has none |
| BookingService.OwnerBookings | src/main/java/ru/practicum/shareit/booking/service/BookingServiceImpl.java:115-122 | exactly the bookings of the listed items in the state, each as often as stored, latest end first |
| BookingService.GetAllBookingsOfItemsForOwner | src/main/java/ru/practicum/shareit/booking/service/BookingServiceImpl.java:106-124 | NotFound exactly when the user owns no item; otherwise exactly the renderings of the bookings of the user's items in the state, one per selected row, latest end first |
| BookingService.OwnerStateIsSubsequence | src/main/java/ru/practicum/shareit/booking/service/BookingServiceImpl.java:115-122 | each state's owner listing is the ALL listing narrowed to that state, order kept |
| BookingQuery.ConditionsByState | src/main/java/ru/practicum/shareit/booking/service/BookingServiceImpl.java:145-181 | no extra condition exactly for ALL; for every other state a condition met exactly by the bookings in that state (strict comparisons, APPROVED for the time states) |
| BookingQuery.WithState | src/main/java/ru/practicum/shareit/booking/service/BookingServiceImpl.java:96-100 | the narrowed condition holds exactly when the base condition holds and the booking is in the state |
| BookingQuery.FindAll | src/main/java/ru/practicum/shareit/booking/service/BookingServiceImpl.java:102 | every row meeting the condition, each as often as stored, latest end first |
| BookingQuery.TimeStatesDisjoint | src/main/java/ru/practicum/shareit/booking/service/BookingServiceImpl.java:155-168 | a forward period is in at most one of CURRENT, PAST and FUTURE |
| BookingQuery.BoundaryInNoTimeState | src/main/java/ru/practicum/shareit/booking/service/BookingServiceImpl.java:155-168 | a booking starting or ending exactly now is in none of the time states |
| BookingQuery.StateIsSubsequence | src/main/java/ru/practicum/shareit/booking/service/BookingServiceImpl.java:96-102 | narrowing the query by a state selects, in order, the bookings in that state from the unnarrowed result |
| BookingRepository.Partition | src/main/java/ru/practicum/shareit/booking/storage/BookingRepository.java:14-16 | one item's partition holds exactly its candidate rows |
| BookingRepository.FirstPerItem | src/main/java/ru/practicum/shareit/booking/storage/BookingRepository.java:12-17 | only candidates of listed items are chosen, each of maximal rank within its item |
| BookingRepository.FirstPerItemCovers | src/main/java/ru/practicum/shareit/booking/storage/BookingRepository.java:12-17 | every listed item with a candidate gets a row |
| BookingRepository.FirstPerItemDistinct | src/main/java/ru/practicum/shareit/booking/storage/BookingRepository.java:12-17 | `anchor = 1` keeps at most one row per item |
| BookingRepository.LastBookings | src/main/java/ru/practicum/shareit/booking/storage/BookingRepository.java:12-18 | per listed item at most one booking, which is over or in progress at the time and has the latest end among such; every listed item that has one gets one; status is ignored |
| BookingRepository.NextBookings | src/main/java/ru/practicum/shareit/booking/storage/BookingRepository.java:20-26 | per listed item at most one booking, which starts after the time and has the earliest start among such; every listed item that has one gets one; status is ignored |
| BookingRepository.LastCandidateBoundaries | src/main/java/ru/practicum/shareit/booking/storage/BookingRepository.java:16 | a booking ending exactly at the time, or a forward one starting at or after it, is never a last booking |
| BookingRepository.LastPrefersInProgress | src/main/java/ru/practicum/shareit/booking/storage/BookingRepository.java:12-18 | when some booking of an item is in progress, the last booking chosen for it is in progress |
| BookingRepository.LoneCandidateChosen | src/main/java/ru/practicum/shareit/booking/storage/BookingRepository.java:12-26 | a lone candidate is chosen whatever its status |
| BookingMapper.ToBookingDto | src/main/java/ru/practicum/shareit/booking/BookingMapper.java:19-28 | id, item, booker and status are copied; the period is rendered in the pattern's shape and reads back as the booking's own period |
| BookingMapper.FromBookingCreateDto | src/main/java/ru/practicum/shareit/booking/BookingMapper.java:30-37 | succeeds exactly when both timestamps parse, else MalformedTimestamp; the booking has no id and no status, the given item and booker, and the parsed period, which renders back to the request's text exactly when that text is canonical |
| BookingMapper.CreateDtoRoundTrip | src/main/java/ru/practicum/shareit/booking/BookingMapper.java:19-37 | a booking read from a request and rendered again shows each of the request's own timestamps exactly when it is canonical, and the request's item and booker with no id or status |
| Timestamp.Format | src/main/java/ru/practicum/shareit/booking/BookingMapper.java:16-17 | rendering a valid date-time gives the 19-character shape `YYYY-MM-DDThh:mm:ss` |
| Timestamp.Parse | src/main/java/ru/practicum/shareit/booking/BookingMapper.java:32-33 | parsing succeeds only on a well-shaped string, and always yields a valid date-time |
| Timestamp.ResolveValid | src/main/java/ru/practicum/shareit/booking/BookingMapper.java:32-33 | fields that already form a valid date-time resolve to exactly that date-time |
| Timestamp.ResolveClampsDay | src/main/java/ru/practicum/shareit/booking/BookingMapper.java:32-33 | before hour 24, resolution keeps the written year, month and time, keeps a day the month has, and turns a later day into the month's last day |
| Timestamp.ResolveEndOfDay | src/main/java/ru/practicum/shareit/booking/BookingMapper.java:32-33 | a resolved 24:00:00 lies exactly one day after 00:00:00 of the same written date |
| Timestamp.ParseRender | src/main/java/ru/practicum/shareit/booking/BookingMapper.java:32-33 | parsing any six numbers written into the pattern gives their resolution |
| Timestamp.RenderRawFields | src/main/java/ru/practicum/shareit/booking/BookingMapper.java:16-17 | every well-shaped string is the zero-padded rendering of the six numbers it writes |
| Timestamp.ResolverExamples | src/main/java/ru/practicum/shareit/booking/BookingMapper.java:32-33 | day 30 of February 2023 reads as the 28th, 24:00:00 on the 28th reads as 1 March at midnight, and 24:00:01 and day 32 fail |
| Timestamp.ParseFormat | src/main/java/ru/practicum/shareit/booking/BookingMapper.java:16-17 | every valid date-time survives rendering and parsing back |
| Timestamp.FormatParse | src/main/java/ru/practicum/shareit/booking/BookingMapper.java:16-17 | a string that parses is the rendering of what it parses to exactly when it is canonical |
| Timestamp.ParseIffFormat | src/main/java/ru/practicum/shareit/booking/BookingMapper.java:16-17 | the renderings of valid date-times are exactly the canonical strings, and each parses to the date-time it renders |
| Timestamp.ParseFormatInstant | src/main/java/ru/practicum/shareit/booking/BookingMapper.java:22-23 | an instant rendered and read back is the same instant |
| Timestamp.FormatParseInstant | src/main/java/ru/practicum/shareit/booking/BookingMapper.java:32-33 | a timestamp read as an instant and rendered again is the same text exactly when it is canonical |
| Calendar.NextDayNumber | src/main/java/ru/practicum/shareit/booking/BookingMapper.java:32-33 | short of the last day of 9999, the next day is a valid date numbered one higher |
| Calendar.FromInstant | src/main/java/ru/practicum/shareit/booking/BookingMapper.java:22-23 | every instant is the position of a valid date-time |
| Calendar.FromToInstant | src/main/java/ru/practicum/shareit/booking/BookingMapper.java:32-33 | a valid date-time placed on the timeline and read back is unchanged |
| Calendar.BeforeIffEarlier | src/main/java/ru/practicum/shareit/booking/service/BookingServiceImpl.java:50-52 | `isBefore` on date-times, field by field, is exactly `<` on their instants |

## Left out

- HTTP controllers, Spring wiring, validation annotations, DTO mappers other than the booking mapper and the item-response rendering, and the user and item DTO projections inside a booking rendering: a rendered booking carries the whole item and booker records.
- Transactions, concurrency and JPA's persistence context: each operation is one atomic step on immutable state.
- The clock: `LocalDateTime.now()` and `Instant.now()` are the parameter `now`. The two readings inside one request are taken to be the same instant, and a `LocalDateTime` is taken to be on the same timeline as an `Instant`, with no time zone.
- Timestamp.Parse: the pattern's `yyyy` also reads a year written as '+' and five or more digits, for any year (`+01000-01-01T00:00:00` is 1 January of year 1000). `java.time` accepts such text and the model refuses it, because the model reads only the 19-character shape with an unsigned four-digit year. So `BookingService.CreateBooking` fails `MalformedTimestamp` on such a timestamp where the program succeeds. Separately, `9999-12-31T24:00:00` resolves to a date of year 10000, outside the modelled calendar of years 0001..9999, and fails here too.
- `Long` ids and their overflow: ids are unbounded integers, so `generateNewId` at `Long.MAX_VALUE` is not modelled.
- Database constraints other than the primary key, including a unique email column on the server. `ServerUserService.Create` shows the service does not check email uniqueness itself.
- Identity columns are modelled as one above the largest key (`Tables.NextKey`). A real sequence never reuses a deleted key.
- `HashMap` iteration order is modelled as ascending key order. Java's order coincides with it while every key is non-negative and below both 65536 and the table's capacity. `HashMap.hash` mixes the upper 16 bits into the bucket index, so from 65536 on, keys can be visited out of order (65537 before 65536 in a large enough table).
- `Text`: `toLowerCase` and `isBlank` are modelled on ASCII only. Unicode case mapping and non-ASCII white space are not modelled.
- The comment-eligibility query and the item listings with last and next bookings belong to the item service of the server, which is not part of this model. Only the two booking queries they call are.
- BookingRepository.LastBookings: promises some row of maximal end per item, not which one among equal ends, because `ROW_NUMBER()` breaks ties in an order the database chooses. The order of the returned rows is not stated either.
- BookingRepository.NextBookings: promises some row of earliest start per item, not which one among equal starts, for the same reason.
- BookingQuery.FindAll: among bookings with equal ends the model fixes an order (table order) that the database does not promise. The contract states only the end order and the contents.
- BookingQuery.StateIsSubsequence: the exact sequence equality rests on the model's table order among equal ends. Two separate `ORDER BY end DESC` queries may order ties differently in a real database, so there the lemma holds only up to the order among equal ends.
- BookingService.RenterStateIsSubsequence: the same; it holds in a real database only up to the order among bookings with equal ends.
- BookingService.OwnerStateIsSubsequence: the same; it holds in a real database only up to the order among bookings with equal ends.
- ItemRequestService.CreateItemRequestDtoList: each request's answers are listed in the model's table order. `findAllByRequestIn` has no `ORDER BY`, so the database does not promise that order. The contract's membership, emptiness and grouping hold whatever the order.
- ItemRequestService.OwnRequests: where rows without a creation time go under `ORDER BY created DESC` is the database's choice. PostgreSQL puts them first, while the model ranks them below every time, so they come last. Every request the service creates has none, so their order among themselves is also the database's. The contract states only the order of the sort key and the contents.
- ItemRequestService.OthersRequests: the placement of rows without a creation time, and the order among equal creation times, are not stated, for the same reasons.
- The first snapshot's `InMemoryItemStorage.create`, `update`, `getByOwner` and `search` are the same code as the server's store, and are modelled once as `ItemStorage.Create`, `ItemStorage.Update`, `ItemStorage.GetByOwner` and `ItemStorage.Search`.
- Exception messages are not modelled; only the exception kind is.

=== FILE: booking_mapper.dfy ===
/**
 * `BookingMapper`: between bookings and their transfer objects, rendering
 * and reading the period with the fixed pattern `yyyy-MM-dd'T'HH:mm:ss`.
 */
module BookingMapper {
  import opened Wrappers
  import opened Calendar
  import opened Timestamp
  import opened Entities

  /** What a client sends to book an item. */
  datatype BookingCreateDto = BookingCreateDto(itemId: int, start: string, end: string)

  /** What a client receives for a booking; the period is in rendered form. */
  datatype BookingDto = BookingDto(id: Option<int>, start: string, end: string, item: Item, booker: User, status: Option<BookingStatus>)

  /**
   * `toBookingDto`: the id, item, booker and status are copied, and the
   * period is rendered so that reading it back gives the booking's period.
   */
  function ToBookingDto(b: Booking): (d: BookingDto)
    ensures d.id == b.id && d.item == b.item && d.booker == b.booker && d.status == b.status
    ensures WellShaped(d.start) && WellShaped(d.end)
    ensures ParseInstant(d.start) == Some(b.start) && ParseInstant(d.end) == Some(b.end)
  {
    ParseFormatInstant(b.start);
    ParseFormatInstant(b.end);
    BookingDto(b.id, FormatInstant(b.start), FormatInstant(b.end), b.item, b.booker, b.status)
  }

  /**
   * `fromBookingCreateDto`: the period is read from the request, item and
   * booker come from the arguments, and id and status are left unset. A
   * timestamp that does not parse fails; one that parses but is not
   * canonical (a clamped day, 24:00:00) stands for an instant whose rendering
   * differs from what the client sent.
   */
  function FromBookingCreateDto(req: BookingCreateDto, item: Item, booker: User): (r: Result<Booking, Error>)
    ensures r.Ok? <==> ParseInstant(req.start).Some? && ParseInstant(req.end).Some?
    ensures r.Err? ==> r.error == MalformedTimestamp
    ensures r.Ok? ==>
      && r.value.id.None? && r.value.status.None?
      && r.value.item == item && r.value.booker == booker
      && ParseInstant(req.start) == Some(r.value.start) && ParseInstant(req.end) == Some(r.value.end)
      && (FormatInstant(r.value.start) == req.start <==> Canonical(req.start))
      && (FormatInstant(r.value.end) == req.end <==> Canonical(req.end))
  {
    match (ParseInstant(req.start), ParseInstant(req.end))
    case (Some(start), Some(end)) =>
      FormatParseInstant(req.start);
      FormatParseInstant(req.end);
      Ok(Booking(None, start, end, item, booker, None))
    case _ => Err(MalformedTimestamp)
  }

  /**
   * A booking read from a request and rendered again shows the request's own
   * timestamps exactly when they were canonical.
   */
  lemma CreateDtoRoundTrip(req: BookingCreateDto, item: Item, booker: User)
    ensures FromBookingCreateDto(req, item, booker).Ok? ==>
      var d := ToBookingDto(FromBookingCreateDto(req, item, booker).value);
      && (d.start == req.start <==> Canonical(req.start))
      && (d.end == req.end <==> Canonical(req.end))
      && d.item == item && d.booker == booker && d.id.None? && d.status.None?
  {
  }
}

=== FILE: booking_query.dfy ===
/**
 * The filters of the booking listings: the QueryDSL conditions
 * `getBookingConditionsByState` builds for each `BookingState`, how a
 * condition selects bookings, and `findAll` with the ordering by end,
 * latest first.
 */
module BookingQuery {
  import opened Wrappers
  import opened Seqs
  import opened Entities

  /** `BookingState`: which of a user's bookings a listing shows. */
  datatype BookingState = ALL | CURRENT | PAST | FUTURE | WAITING | REJECTED

  /** The QueryDSL boolean expressions over `QBooking` the engine builds. */
  datatype Condition =
    | BookerIs(userId: int)
    | ItemIn(itemIds: seq<int>)
    | StartBefore(t: int)
    | StartAfter(t: int)
    | EndBefore(t: int)
    | EndAfter(t: int)
    | StatusIs(status: BookingStatus)
    | And(left: Condition, right: Condition)

  /** Whether a booking row satisfies a condition; a missing status equals no status. */
  predicate Holds(c: Condition, b: Booking) {
    match c
    case BookerIs(userId) => b.booker.id == userId
    case ItemIn(itemIds) => b.item.id in itemIds
    case StartBefore(t) => b.start < t
    case StartAfter(t) => b.start > t
    case EndBefore(t) => b.end < t
    case EndAfter(t) => b.end > t
    case StatusIs(status) => b.status == Some(status)
    case And(left, right) => Holds(left, b) && Holds(right, b)
  }

  function Matches(c: Condition): Booking -> bool {
    b => Holds(c, b)
  }

  /** The period contains `t` strictly inside it. */
  predicate InProgress(b: Booking, t: int) {
    b.start < t < b.end
  }

  /** The period ended strictly before `t`. */
  predicate HasEnded(b: Booking, t: int) {
    b.end < t
  }

  /** The period starts strictly after `t`. */
  predicate IsUpcoming(b: Booking, t: int) {
    t < b.start
  }

  predicate IsApproved(b: Booking) {
    b.status == Some(APPROVED)
  }

  /** What each state means for a booking at time `now`. */
  predicate InState(b: Booking, state: BookingState, now: int) {
    match state
    case ALL => true
    case CURRENT => InProgress(b, now) && IsApproved(b)
    case PAST => HasEnded(b, now) && IsApproved(b)
    case FUTURE => IsUpcoming(b, now) && IsApproved(b)
    case WAITING => b.status == Some(BookingStatus.WAITING)
    case REJECTED => b.status == Some(BookingStatus.REJECTED)
  }

  function InStateAt(state: BookingState, now: int): Booking -> bool {
    b => InState(b, state, now)
  }

  /**
   * `getBookingConditionsByState`: no extra condition for ALL; for every
   * other state a condition that selects exactly the bookings in that state.
   */
  function ConditionsByState(state: BookingState, now: int): (r: Option<Condition>)
    ensures r.None? <==> state == ALL
    ensures r.Some? ==> forall b :: Holds(r.value, b) <==> InState(b, state, now)
  {
    match state
    case ALL => None
    case CURRENT =>
      var during := And(StartBefore(now), EndAfter(now));
      assert forall b :: Holds(during, b) <==> InProgress(b, now);
      Some(And(during, StatusIs(APPROVED)))
    case PAST => Some(And(EndBefore(now), StatusIs(APPROVED)))
    case FUTURE => Some(And(StartAfter(now), StatusIs(APPROVED)))
    case WAITING => Some(StatusIs(BookingStatus.WAITING))
    case REJECTED => Some(StatusIs(BookingStatus.REJECTED))
  }

  /** A base condition, narrowed by the state's condition when there is one. */
  function WithState(base: Condition, state: BookingState, now: int): (c: Condition)
    ensures forall b :: Holds(c, b) <==> Holds(base, b) && InState(b, state, now)
  {
    match ConditionsByState(state, now)
    case None => base
    case Some(extra) => And(base, extra)
  }

  /**
   * `findAll(conditions, end.desc())`: every row satisfying the condition,
   * each as often as it occurs, latest end first.
   */
  function FindAll(rows: seq<Booking>, c: Condition): (r: seq<Booking>)
    ensures SortedDesc(EndOf, r)
    ensures forall b :: multiset(r)[b] == if Holds(c, b) then multiset(rows)[b] else 0
    ensures forall b :: b in r <==> b in rows && Holds(c, b)
  {
    FilterMultiset(Matches(c), rows);
    var r := SortDesc(EndOf, Filter(Matches(c), rows));
    assert forall b :: b in r <==> b in multiset(r);
    assert forall b :: b in rows <==> b in multiset(rows);
    r
  }

  /** A period that does not run backwards is in progress, over, or still to come, at most one of them. */
  lemma TimeStatesDisjoint(b: Booking, now: int)
    requires b.start <= b.end
    ensures !(InState(b, CURRENT, now) && InState(b, PAST, now))
    ensures !(InState(b, CURRENT, now) && InState(b, FUTURE, now))
    ensures !(InState(b, PAST, now) && InState(b, FUTURE, now))
  {
  }

  /** A booking that starts or ends exactly at `now` is in none of the time states. */
  lemma BoundaryInNoTimeState(b: Booking, now: int)
    requires b.start <= b.end
    requires b.start == now || b.end == now
    ensures !InState(b, CURRENT, now) && !InState(b, PAST, now) && !InState(b, FUTURE, now)
  {
  }

  /**
   * Narrowing a listing by a state's condition is selecting, from the
   * listing without it, the bookings in that state: every state's listing
   * is a sub-sequence of the ALL listing, in the same order.
   */
  lemma StateIsSubsequence(rows: seq<Booking>, base: Condition, state: BookingState, now: int)
    ensures FindAll(rows, WithState(base, state, now)) == Filter(InStateAt(state, now), FindAll(rows, base))
  {
    var narrowed := WithState(base, state, now);
    FilterSort(InStateAt(state, now), EndOf, Filter(Matches(base), rows));
    FilterFilter(InStateAt(state, now), Matches(base), Matches(narrowed), rows);
  }
}

=== FILE: booking_repository.dfy ===
/**
 * The two native queries of `BookingRepository` that attach the last and the
 * next booking to each item: among the candidate rows of the listed items,
 * the first row of each item's partition under `ROW_NUMBER()`. The model
 * groups by item in the order of the id list and keeps a row of maximal rank;
 * the database's order among equal ranks is not modelled, so the contracts
 * promise only some maximal row.
 */
module BookingRepository {
  import opened Seqs
  import opened Entities
  import opened BookingQuery

  /** `b.end_date < t OR b.start_date < t AND b.end_date > t`: over, or in progress, at `t`. */
  predicate IsLastCandidate(b: Booking, t: int) {
    b.end < t || (b.start < t && b.end > t)
  }

  /** `b.start_date > t`: still to come at `t`. */
  predicate IsNextCandidate(b: Booking, t: int) {
    b.start > t
  }

  function LastCandidates(t: int): Booking -> bool {
    b => IsLastCandidate(b, t)
  }

  function NextCandidates(t: int): Booking -> bool {
    b => IsNextCandidate(b, t)
  }

  /** The candidates of one item's partition, in table order. */
  function Partition(rows: seq<Booking>, cand: Booking -> bool, itemId: int): (r: seq<Booking>)
    ensures forall b :: b in r <==> b in rows && cand(b) && b.item.id == itemId
  {
    FilterMembers(b => cand(b) && b.item.id == itemId, rows);
    Filter(b => cand(b) && b.item.id == itemId, rows)
  }

  /**
   * For each listed item that has a candidate, one candidate of maximal rank;
   * items follow the order of `itemIds`.
   */
  function FirstPerItem(rows: seq<Booking>, itemIds: seq<int>, cand: Booking -> bool, rank: Booking -> int): (r: seq<Booking>)
    ensures forall b :: b in r ==> b in rows && cand(b) && b.item.id in itemIds
    ensures forall b, c :: b in r && c in rows && cand(c) && c.item.id == b.item.id ==> rank(c) <= rank(b)
    decreases |itemIds|
  {
    if itemIds == [] then []
    else
      var part := Partition(rows, cand, itemIds[0]);
      var rest := FirstPerItem(rows, itemIds[1..], cand, rank);
      assert forall x :: x in itemIds[1..] ==> x in itemIds;
      if part == [] then rest else [ArgMax(rank, part)] + rest
  }

  /** Every listed item with a candidate gets a row. */
  lemma {:induction false} FirstPerItemCovers(rows: seq<Booking>, itemIds: seq<int>, cand: Booking -> bool, rank: Booking -> int)
    ensures forall id :: id in itemIds && (exists c :: c in rows && cand(c) && c.item.id == id) ==>
      exists b :: b in FirstPerItem(rows, itemIds, cand, rank) && b.item.id == id
    decreases |itemIds|
  {
    if itemIds != [] {
      var r := FirstPerItem(rows, itemIds, cand, rank);
      var part := Partition(rows, cand, itemIds[0]);
      var rest := FirstPerItem(rows, itemIds[1..], cand, rank);
      FirstPerItemCovers(rows, itemIds[1..], cand, rank);
      forall id | id in itemIds && (exists c :: c in rows && cand(c) && c.item.id == id)
        ensures exists b :: b in r && b.item.id == id
      {
        var c :| c in rows && cand(c) && c.item.id == id;
        if id == itemIds[0] {
          assert c in part;
          assert r[0] in r && r[0] == ArgMax(rank, part);
        } else {
          assert id in itemIds[1..];
          var b :| b in rest && b.item.id == id;
          assert b in r;
        }
      }
    }
  }

  /** No two rows are bookings of the same item. */
  predicate DistinctItems(r: seq<Booking>) {
    forall i, j :: 0 <= i < j < |r| ==> r[i].item.id != r[j].item.id
  }

  /** Over a list of distinct item ids, no item gets two rows. */
  lemma {:induction false} FirstPerItemDistinct(rows: seq<Booking>, itemIds: seq<int>, cand: Booking -> bool, rank: Booking -> int)
    requires NoDup(itemIds)
    ensures DistinctItems(FirstPerItem(rows, itemIds, cand, rank))
    decreases |itemIds|
  {
    if itemIds != [] {
      var rest := FirstPerItem(rows, itemIds[1..], cand, rank);
      assert NoDup(itemIds[1..]) by {
        assert forall i :: 0 <= i < |itemIds[1..]| ==> itemIds[1..][i] == itemIds[i + 1];
      }
      FirstPerItemDistinct(rows, itemIds[1..], cand, rank);
      var part := Partition(rows, cand, itemIds[0]);
      if part != [] {
        var top := ArgMax(rank, part);
        assert FirstPerItem(rows, itemIds, cand, rank) == [top] + rest;
        assert itemIds[0] !in itemIds[1..];
        DistinctItemsCons(top, rest, itemIds[1..]);
      }
    }
  }

  /** A booking of an item the rest does not cover keeps the items distinct. */
  lemma DistinctItemsCons(top: Booking, rest: seq<Booking>, ids: seq<int>)
    requires forall b :: b in rest ==> b.item.id in ids
    requires top.item.id !in ids
    requires DistinctItems(rest)
    ensures DistinctItems([top] + rest)
  {
    var r := [top] + rest;
    forall i, j | 0 <= i < j < |r|
      ensures r[i].item.id != r[j].item.id
    {
      assert r[j] == rest[j - 1] && r[j] in rest;
      if i > 0 {
        assert r[i] == rest[i - 1];
      }
    }
  }

  function LatestEnd(b: Booking): int { b.end }

  function EarliestStart(b: Booking): int { 0 - b.start as int }

  /**
   * `findAllLastBookingsForItems(t, items)`: per listed item, a booking that
   * is over or in progress at `t` with the latest end among such bookings.
   * The status is not looked at.
   */
  function LastBookings(rows: seq<Booking>, t: int, itemIds: seq<int>): (r: seq<Booking>)
    ensures forall b :: b in r ==> b in rows && IsLastCandidate(b, t) && b.item.id in itemIds
    ensures DistinctItems(r)
    ensures forall b, c :: b in r && c in rows && IsLastCandidate(c, t) && c.item.id == b.item.id ==> c.end <= b.end
    ensures forall id :: id in itemIds && (exists c :: c in rows && IsLastCandidate(c, t) && c.item.id == id) ==>
      exists b :: b in r && b.item.id == id
  {
    var ids := Dedup(itemIds);
    assert NoDup(ids) && forall id :: id in ids <==> id in itemIds;
    assert forall c :: LastCandidates(t)(c) == IsLastCandidate(c, t);
    var r := FirstPerItem(rows, ids, LastCandidates(t), LatestEnd);
    FirstPerItemCovers(rows, ids, LastCandidates(t), LatestEnd);
    FirstPerItemDistinct(rows, ids, LastCandidates(t), LatestEnd);
    assert forall b, c :: b in r && c in rows && IsLastCandidate(c, t) && c.item.id == b.item.id ==> c.end <= b.end by {
      forall b, c | b in r && c in rows && IsLastCandidate(c, t) && c.item.id == b.item.id
        ensures c.end <= b.end
      {
        assert LatestEnd(c) <= LatestEnd(b);
      }
    }
    r
  }

  /**
   * `findAllNearestNextBookingsForItemsMap(t, items)`: per listed item, a
   * booking that starts after `t` with the earliest start among such bookings.
   * The status is not looked at.
   */
  function NextBookings(rows: seq<Booking>, t: int, itemIds: seq<int>): (r: seq<Booking>)
    ensures forall b :: b in r ==> b in rows && IsNextCandidate(b, t) && b.item.id in itemIds
    ensures DistinctItems(r)
    ensures forall b, c :: b in r && c in rows && IsNextCandidate(c, t) && c.item.id == b.item.id ==> b.start <= c.start
    ensures forall id :: id in itemIds && (exists c :: c in rows && IsNextCandidate(c, t) && c.item.id == id) ==>
      exists b :: b in r && b.item.id == id
  {
    var ids := Dedup(itemIds);
    assert NoDup(ids) && forall id :: id in ids <==> id in itemIds;
    assert forall c :: NextCandidates(t)(c) == IsNextCandidate(c, t);
    var r := FirstPerItem(rows, ids, NextCandidates(t), EarliestStart);
    FirstPerItemCovers(rows, ids, NextCandidates(t), EarliestStart);
    FirstPerItemDistinct(rows, ids, NextCandidates(t), EarliestStart);
    assert forall b, c :: b in r && c in rows && IsNextCandidate(c, t) && c.item.id == b.item.id ==> b.start <= c.start by {
      forall b, c | b in r && c in rows && IsNextCandidate(c, t) && c.item.id == b.item.id
        ensures b.start <= c.start
      {
        assert EarliestStart(c) <= EarliestStart(b);
      }
    }
    r
  }

  /** A booking ending exactly at `t`, or (with a forward period) starting at or after `t`, is never a last booking. */
  lemma LastCandidateBoundaries(b: Booking, t: int)
    ensures b.end == t ==> !IsLastCandidate(b, t)
    ensures b.start <= b.end && b.start >= t ==> !IsLastCandidate(b, t)
  {
  }

  /** When some booking of an item is in progress at `t`, the last booking chosen for it is in progress too. */
  lemma LastPrefersInProgress(rows: seq<Booking>, t: int, itemIds: seq<int>, b: Booking, c: Booking)
    requires b in LastBookings(rows, t, itemIds)
    requires c in rows && InProgress(c, t) && c.item.id == b.item.id
    ensures InProgress(b, t)
  {
    assert IsLastCandidate(c, t);
  }

  /** The queries do not filter on status: a lone candidate is chosen whatever its status. */
  lemma LoneCandidateChosen(b: Booking, t: int)
    ensures IsLastCandidate(b, t) ==> LastBookings([b], t, [b.item.id]) == [b]
    ensures IsNextCandidate(b, t) ==> NextBookings([b], t, [b.item.id]) == [b]
  {
    assert Dedup([b.item.id]) == [b.item.id];
    var id := b.item.id;
    assert [id][1..] == [];
    if IsLastCandidate(b, t) {
      FilterAll(x => LastCandidates(t)(x) && x.item.id == id, [b]);
      assert Partition([b], LastCandidates(t), id) == [b];
      assert FirstPerItem([b], [id], LastCandidates(t), LatestEnd) == [b];
    }
    if IsNextCandidate(b, t) {
      FilterAll(x => NextCandidates(t)(x) && x.item.id == id, [b]);
      assert Partition([b], NextCandidates(t), id) == [b];
      assert FirstPerItem([b], [id], NextCandidates(t), EarliestStart) == [b];
    }
  }
}

=== FILE: booking_service.dfy ===
/**
 * `BookingServiceImpl`: creating a booking, its approval or rejection by the
 * item's owner, reading one booking, and the two listings by state. The
 * user, item and booking tables are passed in and the clock reading `now` is
 * a parameter.
 */
module BookingService {
  import opened Wrappers
  import opened Calendar
  import opened Timestamp
  import opened Seqs
  import opened Tables
  import opened Entities
  import opened BookingMapper
  import opened BookingQuery
  import opened RepositoryUtil

  /** The primary key of a booking row; rows in the table always carry one. */
  function BookingKey(b: Booking): int {
    if b.id.Some? then b.id.value else 0
  }

  /** No two saved bookings share an id. */
  predicate BookingIdsUnique(bookings: seq<Booking>) {
    forall i, j :: 0 <= i < j < |bookings| && bookings[i].id.Some? ==> bookings[i].id != bookings[j].id
  }

  /** The date check of `createBooking`: the period starts after it ends, or starts or ends before `now`. */
  predicate Misdated(start: int, end: int, now: int) {
    start > end || start < now || end < now
  }

  /**
   * `createBooking`: the booker and the item must exist (`NotFound`), the
   * period must be readable, must not run backwards and must not reach into
   * the past, and the item must be available (`BookingUnavailable`). On
   * success exactly one booking is appended, with a fresh id and no status;
   * on failure the table is unchanged.
   */
  function CreateBooking(users: seq<User>, items: seq<Item>, bookings: seq<Booking>, userId: int, req: BookingCreateDto, now: int)
    : (o: Outcome<seq<Booking>, BookingDto>)
    ensures o.result.Err? ==> o.state == bookings
    ensures GetUserWithCheck(users, userId).Err? ==> o.result == Err(NotFound)
    ensures GetUserWithCheck(users, userId).Ok? && GetItemWithCheck(items, req.itemId).Err? ==> o.result == Err(NotFound)
    ensures GetUserWithCheck(users, userId).Ok? && GetItemWithCheck(items, req.itemId).Ok? ==>
      match (ParseInstant(req.start), ParseInstant(req.end))
      case (Some(start), Some(end)) =>
        && (o.result.Ok? <==> !Misdated(start, end, now) && GetItemWithCheck(items, req.itemId).value.available)
        && (o.result.Err? ==> o.result.error == BookingUnavailable)
      case _ => o.result == Err(MalformedTimestamp)
    ensures o.result.Ok? ==>
      && |o.state| == |bookings| + 1
      && o.state[..|bookings|] == bookings
      && var saved := o.state[|bookings|];
      && saved.id.Some?
      && (forall b :: b in bookings ==> BookingKey(b) < saved.id.value)
      && GetUserWithCheck(users, userId) == Ok(saved.booker)
      && GetItemWithCheck(items, req.itemId) == Ok(saved.item)
      && saved.status.None?
      && ParseInstant(req.start) == Some(saved.start) && ParseInstant(req.end) == Some(saved.end)
      && o.result.value == ToBookingDto(saved)
  {
    var user := GetUserWithCheck(users, userId);
    if user.Err? then Outcome(bookings, Err(NotFound))
    else
      var item := GetItemWithCheck(items, req.itemId);
      if item.Err? then Outcome(bookings, Err(NotFound))
      else
        match FromBookingCreateDto(req, item.value, user.value)
        case Err(e) => Outcome(bookings, Err(e))
        case Ok(booking) =>
          if Misdated(booking.start, booking.end, now) then Outcome(bookings, Err(BookingUnavailable))
          else if !item.value.available then Outcome(bookings, Err(BookingUnavailable))
          else
            var saved := booking.(id := Some(NextKey(bookings, BookingKey)));
            Outcome(bookings + [saved], Ok(ToBookingDto(saved)))
  }

  /** A period that starts now and ends at the same instant passes the date check. */
  lemma InstantPeriodAccepted(now: int)
    ensures !Misdated(now, now, now)
    ensures forall start, end :: Misdated(start, end, now) <==> !(now <= start <= end)
  {
  }

  function Decision(approved: bool): BookingStatus {
    if approved then APPROVED else BookingStatus.REJECTED
  }

  function IdIs(bookingId: int): Booking -> bool {
    (b: Booking) => b.id == Some(bookingId)
  }

  /** Row `k` is the first row with the booking id: the row a lookup by id finds. */
  predicate FirstWithId(bookings: seq<Booking>, bookingId: int, k: int) {
    && 0 <= k < |bookings|
    && bookings[k].id == Some(bookingId)
    && forall j :: 0 <= j < k ==> bookings[j].id != Some(bookingId)
  }

  /** The first row with the id is the row the lookup by id finds. */
  lemma FirstWithIdFound(bookings: seq<Booking>, bookingId: int, k: int)
    requires FirstWithId(bookings, bookingId, k)
    ensures IndexWhere(IdIs(bookingId), bookings) == Some(k)
  {
    var found := IndexWhere(IdIs(bookingId), bookings);
    assert IdIs(bookingId)(bookings[k]);
    assert found.Some?;
  }

  /**
   * `processBookingByOwner`: the booking must exist (`NotFound`) and the acting
   * user must own its item (`BookingUnavailable`); then its status becomes
   * APPROVED or REJECTED, whatever it was, and nothing else changes.
   */
  function ProcessBookingByOwner(bookings: seq<Booking>, ownerId: int, approved: bool, bookingId: int)
    : (o: Outcome<seq<Booking>, BookingDto>)
    ensures o.result.Err? ==> o.state == bookings
    ensures o.result == Err(NotFound) <==> forall b :: b in bookings ==> b.id != Some(bookingId)
    ensures o.result.Err? ==> o.result.error == NotFound || o.result.error == BookingUnavailable
    ensures o.result == Err(BookingUnavailable) ==>
      exists b :: b in bookings && b.id == Some(bookingId) && b.item.owner.id != ownerId
    ensures o.result.Ok? ==>
      exists k :: FirstWithId(bookings, bookingId, k)
        && bookings[k].item.owner.id == ownerId
        && o.state == bookings[k := bookings[k].(status := Some(Decision(approved)))]
        && o.result.value == ToBookingDto(o.state[k])
  {
    match IndexWhere(IdIs(bookingId), bookings)
    case None => Outcome(bookings, Err(NotFound))
    case Some(k) =>
      var booking := bookings[k];
      assert booking in bookings;
      if booking.item.owner.id != ownerId then Outcome(bookings, Err(BookingUnavailable))
      else
        var processed := booking.(status := Some(Decision(approved)));
        assert FirstWithId(bookings, bookingId, k);
        Outcome(bookings[k := processed], Ok(ToBookingDto(processed)))
  }

  /**
   * The approval the service tests expect: as `ProcessBookingByOwner`, but a
   * booking whose status is not WAITING fails `BookingUnavailable`, so an
   * approved or rejected booking keeps its status.
   */
  function ProcessWaitingBookingByOwner(bookings: seq<Booking>, ownerId: int, approved: bool, bookingId: int)
    : (o: Outcome<seq<Booking>, BookingDto>)
    ensures o.result.Err? ==> o.state == bookings
    ensures o.result == Err(NotFound) <==> forall b :: b in bookings ==> b.id != Some(bookingId)
    ensures o.result.Err? ==> o.result.error == NotFound || o.result.error == BookingUnavailable
    ensures o.result == Err(BookingUnavailable) ==>
      exists b :: b in bookings && b.id == Some(bookingId) && (b.item.owner.id != ownerId || b.status != Some(BookingStatus.WAITING))
    ensures o.result.Ok? ==>
      exists k :: FirstWithId(bookings, bookingId, k)
        && bookings[k].item.owner.id == ownerId
        && bookings[k].status == Some(BookingStatus.WAITING)
        && o.state == bookings[k := bookings[k].(status := Some(Decision(approved)))]
        && o.result.value == ToBookingDto(o.state[k])
  {
    match IndexWhere(IdIs(bookingId), bookings)
    case Some(k) =>
      assert bookings[k] in bookings;
      if bookings[k].item.owner.id == ownerId && bookings[k].status != Some(BookingStatus.WAITING)
      then Outcome(bookings, Err(BookingUnavailable))
      else ProcessBookingByOwner(bookings, ownerId, approved, bookingId)
    case None => ProcessBookingByOwner(bookings, ownerId, approved, bookingId)
  }

  /** Changing the status of the first row with an id leaves it the first row with that id. */
  lemma StatusChangeKeepsFirst(bookings: seq<Booking>, bookingId: int, k: int, status: Option<BookingStatus>)
    requires FirstWithId(bookings, bookingId, k)
    ensures FirstWithId(bookings[k := bookings[k].(status := status)], bookingId, k)
  {
    var after := bookings[k := bookings[k].(status := status)];
    assert forall j :: 0 <= j < k ==> after[j] == bookings[j];
  }

  /** The guarded approval refuses a booking of the acting owner that is no longer WAITING. */
  lemma NotWaitingRefused(bookings: seq<Booking>, ownerId: int, approved: bool, bookingId: int, k: int)
    requires FirstWithId(bookings, bookingId, k)
    requires bookings[k].item.owner.id == ownerId && bookings[k].status != Some(BookingStatus.WAITING)
    ensures ProcessWaitingBookingByOwner(bookings, ownerId, approved, bookingId).result == Err(BookingUnavailable)
  {
    FirstWithIdFound(bookings, bookingId, k);
  }

  /** Once approved or rejected through the guarded approval, a booking can be neither approved nor rejected again. */
  lemma DecisionIsFinal(bookings: seq<Booking>, ownerId: int, approved: bool, again: bool, bookingId: int)
    ensures var first := ProcessWaitingBookingByOwner(bookings, ownerId, approved, bookingId);
      first.result.Ok? ==>
        ProcessWaitingBookingByOwner(first.state, ownerId, again, bookingId).result == Err(BookingUnavailable)
  {
    var first := ProcessWaitingBookingByOwner(bookings, ownerId, approved, bookingId);
    if first.result.Ok? {
      var after := first.state;
      var k :| FirstWithId(bookings, bookingId, k) && bookings[k].item.owner.id == ownerId
        && after == bookings[k := bookings[k].(status := Some(Decision(approved)))];
      StatusChangeKeepsFirst(bookings, bookingId, k, Some(Decision(approved)));
      NotWaitingRefused(after, ownerId, again, bookingId, k);
    }
  }

  /**
   * `getBooking`: the booking must exist (`NotFound`), and only its booker or
   * its item's owner may read it (`IllegalOwner`).
   */
  function GetBooking(bookings: seq<Booking>, userId: int, bookingId: int): (r: Result<BookingDto, Error>)
    ensures r == Err(NotFound) <==> forall b :: b in bookings ==> b.id != Some(bookingId)
    ensures r.Err? ==> r.error == NotFound || r.error == IllegalOwner
    ensures r == Err(IllegalOwner) ==>
      exists b :: b in bookings && b.id == Some(bookingId) && b.booker.id != userId && b.item.owner.id != userId
    ensures r.Ok? ==>
      exists b :: b in bookings && b.id == Some(bookingId) && (b.booker.id == userId || b.item.owner.id == userId)
        && r.value == ToBookingDto(b)
  {
    match FindWhere(IdIs(bookingId), bookings)
    case None => Err(NotFound)
    case Some(b) =>
      if b.booker.id != userId && b.item.owner.id != userId then Err(IllegalOwner)
      else Ok(ToBookingDto(b))
  }

  /** With unique booking ids, a stored booking can be read exactly by its booker and its item's owner. */
  lemma GetBookingRights(bookings: seq<Booking>, userId: int, b: Booking)
    requires BookingIdsUnique(bookings)
    requires b in bookings && b.id.Some?
    ensures GetBooking(bookings, userId, b.id.value).Ok? <==> b.booker.id == userId || b.item.owner.id == userId
    ensures GetBooking(bookings, userId, b.id.value).Ok? ==> GetBooking(bookings, userId, b.id.value).value == ToBookingDto(b)
  {
    var found := FindWhere(IdIs(b.id.value), bookings).value;
    var i :| 0 <= i < |bookings| && bookings[i] == b;
    var j :| 0 <= j < |bookings| && bookings[j] == found;
  }

  /** The only row with its id is what its booker reads under that id. */
  lemma BookerReadsOnlyRow(rows: seq<Booking>, b: Booking)
    requires b in rows && b.id.Some?
    requires forall c :: c in rows && c.id == b.id ==> c == b
    ensures GetBooking(rows, b.booker.id, b.id.value) == Ok(ToBookingDto(b))
  {
    var found := FindWhere(IdIs(b.id.value), rows);
    assert IdIs(b.id.value)(b);
    assert found.Some? && found.value == b;
  }

  /** A row appended under an id above every key is the only row with that id. */
  lemma FreshRowIsOnly(bookings: seq<Booking>, saved: Booking)
    requires saved.id.Some? && forall b :: b in bookings ==> BookingKey(b) < saved.id.value
    ensures forall c :: c in bookings + [saved] && c.id == saved.id ==> c == saved
  {
    forall b | b in bookings
      ensures b.id != saved.id
    {
      assert BookingKey(b) < saved.id.value;
    }
  }

  /** Creating a booking keeps booking ids unique: the new row's id is above every stored key. */
  lemma CreateKeepsIdsUnique(users: seq<User>, items: seq<Item>, bookings: seq<Booking>, userId: int, req: BookingCreateDto, now: int)
    ensures BookingIdsUnique(bookings) ==> BookingIdsUnique(CreateBooking(users, items, bookings, userId, req, now).state)
  {
    var o := CreateBooking(users, items, bookings, userId, req, now);
    if BookingIdsUnique(bookings) && o.result.Ok? {
      var after := o.state;
      var saved := after[|bookings|];
      assert after == bookings + [saved];
      forall i, j | 0 <= i < j < |after| && after[i].id.Some?
        ensures after[i].id != after[j].id
      {
        assert after[i] == bookings[i];
        if j == |bookings| {
          assert BookingKey(bookings[i]) < saved.id.value;
        } else {
          assert after[j] == bookings[j];
        }
      }
    }
  }

  /** Changing the status of one row keeps booking ids unique. */
  lemma StatusChangeKeepsIdsUnique(bookings: seq<Booking>, k: int, status: Option<BookingStatus>)
    requires 0 <= k < |bookings|
    ensures BookingIdsUnique(bookings) ==> BookingIdsUnique(bookings[k := bookings[k].(status := status)])
  {
    var after := bookings[k := bookings[k].(status := status)];
    assert forall i :: 0 <= i < |bookings| ==> after[i].id == bookings[i].id;
  }

  /** Approving or rejecting changes only a status, so booking ids stay unique. */
  lemma ProcessKeepsIdsUnique(bookings: seq<Booking>, ownerId: int, approved: bool, bookingId: int)
    ensures BookingIdsUnique(bookings) ==> BookingIdsUnique(ProcessBookingByOwner(bookings, ownerId, approved, bookingId).state)
    ensures BookingIdsUnique(bookings) ==> BookingIdsUnique(ProcessWaitingBookingByOwner(bookings, ownerId, approved, bookingId).state)
  {
    var status := Some(Decision(approved));
    var o := ProcessBookingByOwner(bookings, ownerId, approved, bookingId);
    if o.result.Ok? {
      var k :| FirstWithId(bookings, bookingId, k) && o.state == bookings[k := bookings[k].(status := status)];
      StatusChangeKeepsIdsUnique(bookings, k, status);
    }
    var w := ProcessWaitingBookingByOwner(bookings, ownerId, approved, bookingId);
    if w.result.Ok? {
      var k :| FirstWithId(bookings, bookingId, k) && w.state == bookings[k := bookings[k].(status := status)];
      StatusChangeKeepsIdsUnique(bookings, k, status);
    }
  }

  /** A booking just created can be read back by its booker, showing what creation returned. */
  lemma CreatedBookingReadable(users: seq<User>, items: seq<Item>, bookings: seq<Booking>, userId: int, req: BookingCreateDto, now: int)
    ensures var o := CreateBooking(users, items, bookings, userId, req, now);
      o.result.Ok? ==>
        && o.result.value.id.Some?
        && GetBooking(o.state, userId, o.result.value.id.value) == o.result
  {
    var o := CreateBooking(users, items, bookings, userId, req, now);
    if o.result.Ok? {
      var saved := o.state[|bookings|];
      assert o.state == bookings + [saved] by {
        assert o.state == o.state[..|bookings|] + [saved];
      }
      FreshRowIsOnly(bookings, saved);
      BookerReadsOnlyRow(o.state, saved);
    }
  }

  /** The bookings in a listing, rendered in order. */
  function ToOrderedDtoList(bookings: seq<Booking>): (r: seq<BookingDto>)
    ensures |r| == |bookings|
    ensures forall i :: 0 <= i < |bookings| ==> r[i] == ToBookingDto(bookings[i])
  {
    seq(|bookings|, i requires 0 <= i < |bookings| => ToBookingDto(bookings[i]))
  }

  /** A listing of the rows of `source` that pass `keep` renders exactly those rows. */
  lemma RenderedMembers(selected: seq<Booking>, source: seq<Booking>, keep: Booking -> bool)
    requires forall b :: b in selected <==> b in source && keep(b)
    ensures forall d :: d in ToOrderedDtoList(selected) ==> exists b :: b in source && keep(b) && d == ToBookingDto(b)
    ensures forall b :: b in source && keep(b) ==> ToBookingDto(b) in ToOrderedDtoList(selected)
  {
    var r := ToOrderedDtoList(selected);
    MapMembers(ToBookingDto, selected, r);
    forall d | d in r
      ensures exists b :: b in source && keep(b) && d == ToBookingDto(b)
    {
      var b :| b in selected && d == ToBookingDto(b);
    }
  }

  /** Rendered bookings, latest end first. */
  predicate EndsDescending(ds: seq<BookingDto>) {
    forall i, j :: 0 <= i < j < |ds| ==>
      ParseInstant(ds[i].end).Some? && ParseInstant(ds[j].end).Some?
      && ParseInstant(ds[j].end).value <= ParseInstant(ds[i].end).value
  }

  lemma RenderedOrder(bookings: seq<Booking>)
    requires SortedDesc(EndOf, bookings)
    ensures EndsDescending(ToOrderedDtoList(bookings))
  {
    var ds := ToOrderedDtoList(bookings);
    forall i, j | 0 <= i < j < |ds|
      ensures ParseInstant(ds[i].end).Some? && ParseInstant(ds[j].end).Some?
      ensures ParseInstant(ds[j].end).value <= ParseInstant(ds[i].end).value
    {
      assert EndOf(bookings[j]) <= EndOf(bookings[i]);
    }
  }

  /** The query of `getAllBookingsWithState`: the user's bookings in the state, latest end first. */
  function RenterBookings(bookings: seq<Booking>, userId: int, state: BookingState, now: int): (r: seq<Booking>)
    ensures SortedDesc(EndOf, r)
    ensures forall b :: multiset(r)[b] == if b.booker.id == userId && InState(b, state, now) then multiset(bookings)[b] else 0
    ensures forall b :: b in r <==> b in bookings && b.booker.id == userId && InState(b, state, now)
  {
    FindAll(bookings, WithState(BookerIs(userId), state, now))
  }

  /**
   * `getAllBookingsWithState`: every booking of the user in the state, once
   * per row, rendered, latest end first. An unknown user simply has none.
   */
  function GetAllBookingsWithState(bookings: seq<Booking>, userId: int, state: BookingState, now: int): (r: seq<BookingDto>)
    ensures |r| == |RenterBookings(bookings, userId, state, now)|
    ensures forall d :: d in r ==>
      exists b :: b in bookings && b.booker.id == userId && InState(b, state, now) && d == ToBookingDto(b)
    ensures forall b :: b in bookings && b.booker.id == userId && InState(b, state, now) ==> ToBookingDto(b) in r
    ensures EndsDescending(r)
  {
    var selected := RenterBookings(bookings, userId, state, now);
    RenderedOrder(selected);
    RenderedMembers(selected, bookings, (b: Booking) => b.booker.id == userId && InState(b, state, now));
    ToOrderedDtoList(selected)
  }

  /** Each state's listing is the ALL listing narrowed to that state, in the same order. */
  lemma RenterStateIsSubsequence(bookings: seq<Booking>, userId: int, state: BookingState, now: int)
    ensures RenterBookings(bookings, userId, state, now) == Filter(InStateAt(state, now), RenterBookings(bookings, userId, ALL, now))
  {
    StateIsSubsequence(bookings, BookerIs(userId), state, now);
  }

  /** `findAllByOwnerId`, as the ids the `item.in(userItems)` condition compares. */
  function OwnedItemIds(items: seq<Item>, ownerId: int): (r: seq<int>)
    ensures forall id :: id in r <==> exists i :: i in items && i.owner.id == ownerId && i.id == id
    ensures |r| == 0 <==> forall i :: i in items ==> i.owner.id != ownerId
  {
    if items == [] then []
    else
      var rest := OwnedItemIds(items[1..], ownerId);
      assert forall i :: i in items[1..] ==> i in items;
      assert forall i :: i in items ==> i == items[0] || i in items[1..];
      if items[0].owner.id == ownerId then [items[0].id] + rest else rest
  }

  /** The query of `getAllBookingsOfItemsForOwner`: bookings of the owner's items in the state, latest end first. */
  function OwnerBookings(bookings: seq<Booking>, ownedIds: seq<int>, state: BookingState, now: int): (r: seq<Booking>)
    ensures SortedDesc(EndOf, r)
    ensures forall b :: multiset(r)[b] == if b.item.id in ownedIds && InState(b, state, now) then multiset(bookings)[b] else 0
    ensures forall b :: b in r <==> b in bookings && b.item.id in ownedIds && InState(b, state, now)
  {
    FindAll(bookings, WithState(ItemIn(ownedIds), state, now))
  }

  /**
   * `getAllBookingsOfItemsForOwner`: a user owning no item fails `NotFound`,
   * whatever the state; otherwise every booking of one of the user's items
   * in the state, rendered, latest end first.
   */
  function GetAllBookingsOfItemsForOwner(items: seq<Item>, bookings: seq<Booking>, ownerId: int, state: BookingState, now: int)
    : (r: Result<seq<BookingDto>, Error>)
    ensures r.Err? <==> forall i :: i in items ==> i.owner.id != ownerId
    ensures r.Err? ==> r.error == NotFound
    ensures r.Ok? ==> forall d :: d in r.value ==>
      exists b, i :: b in bookings && i in items && i.owner.id == ownerId && b.item.id == i.id
        && InState(b, state, now) && d == ToBookingDto(b)
    ensures r.Ok? ==> forall b, i ::
      (b in bookings && i in items && i.owner.id == ownerId && b.item.id == i.id && InState(b, state, now))
        ==> ToBookingDto(b) in r.value
    ensures r.Ok? ==> EndsDescending(r.value)
    ensures r.Ok? ==> |r.value| == |OwnerBookings(bookings, OwnedItemIds(items, ownerId), state, now)|
  {
    var ownedIds := OwnedItemIds(items, ownerId);
    if ownedIds == [] then Err(NotFound)
    else
      var selected := OwnerBookings(bookings, ownedIds, state, now);
      RenderedOrder(selected);
      RenderedMembers(selected, bookings, (b: Booking) => b.item.id in ownedIds && InState(b, state, now));
      Ok(ToOrderedDtoList(selected))
  }

  /** Each state's owner listing is the ALL listing narrowed to that state, in the same order. */
  lemma OwnerStateIsSubsequence(bookings: seq<Booking>, ownedIds: seq<int>, state: BookingState, now: int)
    ensures OwnerBookings(bookings, ownedIds, state, now) == Filter(InStateAt(state, now), OwnerBookings(bookings, ownedIds, ALL, now))
  {
    StateIsSubsequence(bookings, ItemIn(ownedIds), state, now);
  }
}

=== FILE: calendar.dfy ===
/**
 * Local date-times of the proleptic Gregorian calendar (the calendar of
 * `java.time.LocalDateTime`), restricted to the years 0001..9999 that the
 * four-digit year pattern can render, and their numbering as seconds on one
 * integer timeline. Every comparison the booking engine makes between two
 * date-times is a comparison of these numbers (`BeforeIffEarlier`).
 */
module Calendar {

  /** A second-resolution local date-time; meaningful only when `Valid`. */
  datatype DateTime = DateTime(year: int, month: int, day: int, hour: int, minute: int, second: int)

  const SecondsPerDay: int := 86400

  /** Days from 0001-01-01 up to (excluding) 10000-01-01. */
  const DaysInRange: int := 3652059

  /** Seconds from 0001-01-01T00:00:00 up to (excluding) 10000-01-01T00:00:00. */
  const InstantLimit: int := DaysInRange * SecondsPerDay

  /** A point of the timeline: seconds elapsed since 0001-01-01T00:00:00. */
  type Instant = t: int | 0 <= t < InstantLimit

  predicate IsLeapYear(y: int) {
    y % 4 == 0 && (y % 100 != 0 || y % 400 == 0)
  }

  function DaysInYear(y: int): int {
    if IsLeapYear(y) then 366 else 365
  }

  function DaysInMonth(y: int, m: int): int {
    if m == 2 then (if IsLeapYear(y) then 29 else 28)
    else if m == 4 || m == 6 || m == 9 || m == 11 then 30
    else 31
  }

  predicate Valid(dt: DateTime) {
    && 1 <= dt.year <= 9999
    && 1 <= dt.month <= 12
    && 1 <= dt.day <= DaysInMonth(dt.year, dt.month)
    && 0 <= dt.hour < 24
    && 0 <= dt.minute < 60
    && 0 <= dt.second < 60
  }

  /** Days from 0001-01-01 to the first day of year `y` (Gregorian leap rule). */
  function DaysBeforeYear(y: int): int
    requires 1 <= y <= 10000
  {
    var p := y - 1;
    365 * p + p / 4 - p / 100 + p / 400
  }

  /** Days from the first of January of year `y` to the first day of month `m` (13 = next year). */
  function DaysBeforeMonth(y: int, m: int): int
    requires 1 <= m <= 13
  {
    var common :=
      if m == 1 then 0 else if m == 2 then 31 else if m == 3 then 59
      else if m == 4 then 90 else if m == 5 then 120 else if m == 6 then 151
      else if m == 7 then 181 else if m == 8 then 212 else if m == 9 then 243
      else if m == 10 then 273 else if m == 11 then 304 else if m == 12 then 334
      else 365;
    if m >= 3 && IsLeapYear(y) then common + 1 else common
  }

  function DayNumber(dt: DateTime): int
    requires Valid(dt)
  {
    DaysBeforeYear(dt.year) + DaysBeforeMonth(dt.year, dt.month) + dt.day - 1
  }

  function SecondOfDay(dt: DateTime): int {
    dt.hour * 3600 + dt.minute * 60 + dt.second
  }

  /** The position of a valid date-time on the timeline. */
  function ToInstant(dt: DateTime): Instant
    requires Valid(dt)
  {
    DayNumberBounds(dt);
    DayNumber(dt) * SecondsPerDay + SecondOfDay(dt)
  }

  /** The date-time at a position of the timeline; `ToInstant` undoes it. */
  function FromInstant(t: Instant): (dt: DateTime)
    ensures Valid(dt)
    ensures ToInstant(dt) == t
  {
    var days := t / SecondsPerDay;
    var secs := t % SecondsPerDay;
    assert t == days * SecondsPerDay + secs;
    var date := DateOfDay(days);
    SplitSeconds(secs);
    var dt := date.(hour := secs / 3600, minute := secs % 3600 / 60, second := secs % 60);
    assert DayNumber(dt) == DayNumber(date);
    dt
  }

  /** Midnight of the day with number `days`. */
  function DateOfDay(days: int): (dt: DateTime)
    requires 0 <= days < DaysInRange
    ensures Valid(dt) && dt.hour == 0 && dt.minute == 0 && dt.second == 0
    ensures DayNumber(dt) == days
  {
    var y := YearContaining(days, 1);
    YearStep(y);
    var dayOfYear := days - DaysBeforeYear(y);
    var m := MonthContaining(y, dayOfYear, 1);
    MonthStep(y, m);
    var day := dayOfYear - DaysBeforeMonth(y, m) + 1;
    assert 1 <= day <= DaysInMonth(y, m);
    DateTime(y, m, day, 0, 0, 0)
  }

  /** The day after `dt`, at the same time of day. */
  function NextDay(dt: DateTime): DateTime {
    if dt.day < DaysInMonth(dt.year, dt.month) then dt.(day := dt.day + 1)
    else if dt.month < 12 then dt.(month := dt.month + 1, day := 1)
    else dt.(year := dt.year + 1, month := 1, day := 1)
  }

  /** Short of the last day of 9999, the next day is a valid date numbered one higher. */
  lemma NextDayNumber(dt: DateTime)
    requires Valid(dt)
    requires !(dt.year == 9999 && dt.month == 12 && dt.day == 31)
    ensures Valid(NextDay(dt))
    ensures DayNumber(NextDay(dt)) == DayNumber(dt) + 1
  {
    if dt.day == DaysInMonth(dt.year, dt.month) {
      if dt.month < 12 {
        MonthStep(dt.year, dt.month);
      } else {
        YearStep(dt.year);
      }
    }
  }

  /** The year whose days contain day number `days`, searched upwards from `y`. */
  function YearContaining(days: int, y: int): (r: int)
    requires 1 <= y <= 9999
    requires DaysBeforeYear(y) <= days < DaysInRange
    ensures 1 <= r <= 9999
    ensures DaysBeforeYear(r) <= days < DaysBeforeYear(r + 1)
    decreases 9999 - y
  {
    if days < DaysBeforeYear(y + 1) then y else YearContaining(days, y + 1)
  }

  /** The month of year `y` whose days contain day-of-year `dayOfYear`, searched upwards from `m`. */
  function MonthContaining(y: int, dayOfYear: int, m: int): (r: int)
    requires 1 <= m <= 12
    requires DaysBeforeMonth(y, m) <= dayOfYear < DaysInYear(y)
    ensures 1 <= r <= 12
    ensures DaysBeforeMonth(y, r) <= dayOfYear < DaysBeforeMonth(y, r + 1)
    decreases 12 - m
  {
    if dayOfYear < DaysBeforeMonth(y, m + 1) then m else MonthContaining(y, dayOfYear, m + 1)
  }

  lemma YearStep(y: int)
    requires 1 <= y <= 9999
    ensures DaysBeforeYear(y + 1) == DaysBeforeYear(y) + DaysInYear(y)
  {
    DivStep4(y);
    DivStep100(y);
    DivStep400(y);
    var p := y - 1;
    assert DaysBeforeYear(y + 1) == 365 * p + 365 + y / 4 - y / 100 + y / 400;
    assert DaysBeforeYear(y) == 365 * p + p / 4 - p / 100 + p / 400;
  }

  lemma MonthStep(y: int, m: int)
    requires 1 <= m <= 12
    ensures DaysBeforeMonth(y, m + 1) == DaysBeforeMonth(y, m) + DaysInMonth(y, m)
  {
  }

  /** The hour, minute and second of a second of the day. */
  lemma SplitSeconds(secs: int)
    requires 0 <= secs < SecondsPerDay
    ensures 0 <= secs / 3600 < 24 && 0 <= secs % 3600 / 60 < 60 && 0 <= secs % 60 < 60
    ensures (secs / 3600) * 3600 + (secs % 3600 / 60) * 60 + secs % 60 == secs
  {
    var h, rest := secs / 3600, secs % 3600;
    assert secs == h * 3600 + rest;
    assert rest == (rest / 60) * 60 + rest % 60;
    assert secs % 60 == rest % 60;
  }

  /** Moving from `y - 1` to `y` adds one to the quotient by 4 exactly when 4 divides `y`; likewise below for 100 and 400. */
  lemma DivStep4(y: int)
    ensures y / 4 == (y - 1) / 4 + (if y % 4 == 0 then 1 else 0)
  {
  }

  lemma DivStep100(y: int)
    ensures y / 100 == (y - 1) / 100 + (if y % 100 == 0 then 1 else 0)
  {
  }

  lemma DivStep400(y: int)
    ensures y / 400 == (y - 1) / 400 + (if y % 400 == 0 then 1 else 0)
  {
  }

  lemma {:induction false} YearsMonotone(a: int, b: int)
    requires 1 <= a < b <= 10000
    ensures DaysBeforeYear(a + 1) <= DaysBeforeYear(b)
    decreases b - a
  {
    if a + 1 < b {
      YearsMonotone(a, b - 1);
      YearStep(b - 1);
    }
  }

  lemma MonthsMonotone(y: int, a: int, b: int)
    requires 1 <= a < b <= 13
    ensures DaysBeforeMonth(y, a + 1) <= DaysBeforeMonth(y, b)
  {
  }

  lemma DayNumberBounds(dt: DateTime)
    requires Valid(dt)
    ensures DaysBeforeYear(dt.year) <= DayNumber(dt) < DaysBeforeYear(dt.year + 1)
    ensures 0 <= DayNumber(dt) < DaysInRange
    ensures 0 <= DayNumber(dt) * SecondsPerDay + SecondOfDay(dt) < InstantLimit
  {
    YearStep(dt.year);
    YearsMonotone(dt.year, 10000);
    if dt.year > 1 {
      YearsMonotone(1, dt.year);
    }
  }

  /** Two years whose day ranges both contain `days` are the same year. */
  lemma YearUnique(days: int, a: int, b: int)
    requires 1 <= a <= 9999 && 1 <= b <= 9999
    requires DaysBeforeYear(a) <= days < DaysBeforeYear(a + 1)
    requires DaysBeforeYear(b) <= days < DaysBeforeYear(b + 1)
    ensures a == b
  {
    if a < b {
      YearsMonotone(a, b);
    } else if b < a {
      YearsMonotone(b, a);
    }
  }

  lemma MonthUnique(y: int, dayOfYear: int, a: int, b: int)
    requires 1 <= a <= 12 && 1 <= b <= 12
    requires DaysBeforeMonth(y, a) <= dayOfYear < DaysBeforeMonth(y, a + 1)
    requires DaysBeforeMonth(y, b) <= dayOfYear < DaysBeforeMonth(y, b + 1)
    ensures a == b
  {
    if a < b {
      MonthsMonotone(y, a, b);
    } else if b < a {
      MonthsMonotone(y, b, a);
    }
  }

  /** Euclidean division by the length of a day splits an instant into day number and second of day. */
  lemma SplitDay(t: int, days: int, secs: int)
    requires 0 <= secs < SecondsPerDay
    requires t == days * SecondsPerDay + secs
    ensures t / SecondsPerDay == days && t % SecondsPerDay == secs
  {
  }

  /** Euclidean division recovers hour, minute and second from the second of the day. */
  lemma SplitSecondOfDay(dt: DateTime)
    requires Valid(dt)
    ensures SecondOfDay(dt) / 3600 == dt.hour
    ensures SecondOfDay(dt) % 3600 / 60 == dt.minute
    ensures SecondOfDay(dt) % 60 == dt.second
  {
    var secs := SecondOfDay(dt);
    assert secs / 3600 == dt.hour && secs % 3600 == dt.minute * 60 + dt.second;
  }

  /** The year found for the day number of `dt` is the year of `dt`. */
  lemma YearOfDayNumber(dt: DateTime)
    requires Valid(dt)
    ensures 0 <= DayNumber(dt) < DaysInRange && YearContaining(DayNumber(dt), 1) == dt.year
  {
    var days := DayNumber(dt);
    DayNumberBounds(dt);
    YearUnique(days, YearContaining(days, 1), dt.year);
  }

  /** The month found for the day of year of `dt` is the month of `dt`. */
  lemma MonthOfDayOfYear(dt: DateTime)
    requires Valid(dt)
    ensures && 0 <= DaysBeforeMonth(dt.year, dt.month) + dt.day - 1 < DaysInYear(dt.year)
            && MonthContaining(dt.year, DaysBeforeMonth(dt.year, dt.month) + dt.day - 1, 1) == dt.month
  {
    var y := dt.year;
    var dayOfYear := DaysBeforeMonth(y, dt.month) + dt.day - 1;
    MonthStep(y, dt.month);
    MonthsMonotone(y, dt.month, 13);
    MonthUnique(y, dayOfYear, MonthContaining(y, dayOfYear, 1), dt.month);
  }

  /** Rendering a valid date-time as an instant loses nothing. */
  lemma FromToInstant(dt: DateTime)
    requires Valid(dt)
    ensures FromInstant(ToInstant(dt)) == dt
  {
    var t := ToInstant(dt);
    DayNumberBounds(dt);
    SplitDay(t, DayNumber(dt), SecondOfDay(dt));
    SplitSecondOfDay(dt);
    YearOfDayNumber(dt);
    MonthOfDayOfYear(dt);
  }

  /** `LocalDateTime.isBefore`: field by field, most significant first. */
  predicate Before(a: DateTime, b: DateTime) {
    if a.year != b.year then a.year < b.year
    else if a.month != b.month then a.month < b.month
    else if a.day != b.day then a.day < b.day
    else if a.hour != b.hour then a.hour < b.hour
    else if a.minute != b.minute then a.minute < b.minute
    else a.second < b.second
  }

  lemma BeforeImpliesEarlier(a: DateTime, b: DateTime)
    requires Valid(a) && Valid(b)
    requires Before(a, b)
    ensures ToInstant(a) < ToInstant(b)
  {
    DayNumberBounds(a);
    DayNumberBounds(b);
    if a.year != b.year {
      YearsMonotone(a.year, b.year);
    } else if a.month != b.month {
      MonthsMonotone(a.year, a.month, b.month);
      MonthStep(a.year, a.month);
    }
  }

  /** Comparing date-times field by field is comparing their instants. */
  lemma BeforeIffEarlier(a: DateTime, b: DateTime)
    requires Valid(a) && Valid(b)
    ensures Before(a, b) <==> ToInstant(a) < ToInstant(b)
  {
    if Before(a, b) {
      BeforeImpliesEarlier(a, b);
    } else if a != b {
      BeforeImpliesEarlier(b, a);
    }
  }
}

=== FILE: entities.dfy ===
/**
 * The records of the sharing service: users, the items they own, the
 * requests for items they post, and the bookings of items. Ids are the
 * `Long` primary keys; a field the source leaves `null` is an `Option`.
 */
module Entities {
  import opened Wrappers
  import opened Calendar

  /**
   * The exceptions the services throw (`NotFound`, `BookingUnavailable`,
   * `IllegalOwner`, `EmailRepeated`) and the parse failure of a timestamp
   * that does not follow the booking pattern.
   */
  datatype Error = NotFound | BookingUnavailable | IllegalOwner | EmailRepeated | MalformedTimestamp

  datatype BookingStatus = WAITING | APPROVED | REJECTED

  datatype User = User(id: int, name: string, email: string)

  /** An item for rent; `request` is the id of the item request it answers, if any. */
  datatype Item = Item(id: int, name: string, description: string, available: bool, owner: User, request: Option<int>)

  /**
   * A booking of `item` by `booker` over the period from `start` to `end`.
   * `id` is unset until the row is saved, and `status` is unset on a booking
   * just created: the service never assigns one at creation.
   */
  datatype Booking = Booking(id: Option<int>, start: Instant, end: Instant, item: Item, booker: User, status: Option<BookingStatus>)

  /**
   * A request for an item nobody offers yet. `created` is a nullable column
   * with no generated value, so it is absent unless the row was written with one.
   */
  datatype ItemRequest = ItemRequest(id: int, description: string, requestor: User, created: Option<Instant>)

  /** The state a mutating operation leaves behind and what it returned or threw. */
  datatype Outcome<S, T> = Outcome(state: S, result: Result<T, Error>)

  /** A field of a partial update, where `null` means "keep": present replaces, absent keeps. */
  function Patched<T>(current: T, patch: Option<T>): T {
    if patch.Some? then patch.value else current
  }

  function UserId(u: User): int { u.id }

  function ItemId(i: Item): int { i.id }

  function RequestId(r: ItemRequest): int { r.id }

  function EndOf(b: Booking): int { b.end }
}

=== FILE: item_request_service.dfy ===
/**
 * `ItemRequestServiceImpl`: posting a request for an item, listing one's own
 * requests and everybody else's (newest first), reading one request, and
 * attaching to each listed request the items offered in answer to it.
 * Users, requests and items are JPA tables.
 */
module ItemRequestService {
  import opened Wrappers
  import opened Calendar
  import opened Seqs
  import opened Tables
  import opened Entities
  import opened RepositoryUtil

  /** `ItemResponseDto`: what a request listing shows of an item offered in answer. */
  datatype ItemResponse = ItemResponse(id: int, ownerId: int, name: string)

  /** `ItemRequestDto`; `items` is absent, not empty, when nothing answers the request. */
  datatype ItemRequestDto = ItemRequestDto(id: int, description: string, created: Option<Instant>, items: Option<seq<ItemResponse>>)

  /** `toItemResponseDto`. */
  function ToItemResponse(item: Item): (r: ItemResponse)
    ensures r.id == item.id && r.ownerId == item.owner.id && r.name == item.name
  {
    ItemResponse(item.id, item.owner.id, item.name)
  }

  function Answers(requestId: int): Item -> bool {
    (i: Item) => i.request == Some(requestId)
  }

  /** The items offered in answer to the request, rendered, in table order. */
  function AnswersTo(items: seq<Item>, requestId: int): (r: seq<ItemResponse>)
    ensures forall x :: x in r <==> exists i :: i in items && i.request == Some(requestId) && x == ToItemResponse(i)
    ensures r == [] <==> forall i :: i in items ==> i.request != Some(requestId)
  {
    var offered := Filter(Answers(requestId), items);
    FilterMembers(Answers(requestId), items);
    var r := seq(|offered|, k requires 0 <= k < |offered| => ToItemResponse(offered[k]));
    forall x
      ensures x in r <==> exists i :: i in items && i.request == Some(requestId) && x == ToItemResponse(i)
    {
      if x in r {
        var k :| 0 <= k < |r| && r[k] == x;
        assert offered[k] in items && offered[k].request == Some(requestId);
      }
      if exists i :: i in items && i.request == Some(requestId) && x == ToItemResponse(i) {
        var i :| i in items && i.request == Some(requestId) && x == ToItemResponse(i);
        assert Answers(requestId)(i);
        var k :| 0 <= k < |offered| && offered[k] == i;
        assert r[k] == x;
      }
    }
    assert r == [] <==> offered == [];
    assert offered == [] <==> forall i :: i in items ==> i.request != Some(requestId) by {
      if offered != [] {
        assert offered[0] in offered;
      }
    }
    r
  }

  /** One item in front contributes its own rendering exactly when it answers the request. */
  lemma AnswersToCons(x: Item, s: seq<Item>, requestId: int)
    ensures AnswersTo([x] + s, requestId)
         == (if x.request == Some(requestId) then [ToItemResponse(x)] else []) + AnswersTo(s, requestId)
  {
    FilterCons(Answers(requestId), x, s);
    var head := if Answers(requestId)(x) then [x] else [];
    var lhs := AnswersTo([x] + s, requestId);
    var rhs := (if x.request == Some(requestId) then [ToItemResponse(x)] else []) + AnswersTo(s, requestId);
    assert |lhs| == |rhs|;
    forall k | 0 <= k < |lhs|
      ensures lhs[k] == rhs[k]
    {
      if k < |head| {
        assert lhs[k] == ToItemResponse(x);
      } else {
        assert lhs[k] == ToItemResponse(Filter(Answers(requestId), s)[k - |head|]);
      }
    }
  }

  /**
   * The answers keep the items' encounter order: those of a concatenation are
   * the answers of each part in turn, and one item contributes its own
   * rendering exactly when it answers the request.
   */
  lemma {:induction false} AnswersToConcat(a: seq<Item>, b: seq<Item>, requestId: int)
    ensures AnswersTo(a + b, requestId) == AnswersTo(a, requestId) + AnswersTo(b, requestId)
    decreases |a|
  {
    if a == [] {
      assert a + b == b;
    } else {
      var x, rest := a[0], a[1..];
      var head := if x.request == Some(requestId) then [ToItemResponse(x)] else [];
      assert a + b == [x] + (rest + b);
      assert a == [x] + rest;
      calc {
        AnswersTo(a + b, requestId);
        { AnswersToCons(x, rest + b, requestId); }
        head + AnswersTo(rest + b, requestId);
        { AnswersToConcat(rest, b, requestId); }
        head + (AnswersTo(rest, requestId) + AnswersTo(b, requestId));
        (head + AnswersTo(rest, requestId)) + AnswersTo(b, requestId);
        { AnswersToCons(x, rest, requestId); }
        AnswersTo(a, requestId) + AnswersTo(b, requestId);
      }
    }
  }

  /**
   * `createItemRequestDtoList`: one entry per request, in the order given;
   * each carries the request's fields and the items answering it, grouped by
   * request id, or no list at all when none does.
   */
  function CreateItemRequestDtoList(requests: seq<ItemRequest>, items: seq<Item>): (r: seq<ItemRequestDto>)
    ensures |r| == |requests|
    ensures forall k :: 0 <= k < |requests| ==>
      && r[k].id == requests[k].id
      && r[k].description == requests[k].description
      && r[k].created == requests[k].created
      && (r[k].items.None? <==> forall i :: i in items ==> i.request != Some(requests[k].id))
      && (r[k].items.Some? ==> r[k].items.value == AnswersTo(items, requests[k].id))
  {
    seq(|requests|, k requires 0 <= k < |requests| =>
      var answers := AnswersTo(items, requests[k].id);
      ItemRequestDto(requests[k].id, requests[k].description, requests[k].created,
                     if answers == [] then None else Some(answers)))
  }

  /**
   * `createRequest`: the requestor must exist (`NotFound`); the request is
   * appended under the next identity value and returned without items. The
   * mapper sets only description and requestor, so the stored row and the
   * returned request have no creation time.
   */
  function CreateRequest(users: seq<User>, requests: seq<ItemRequest>, userId: int, description: string)
    : (o: Outcome<seq<ItemRequest>, ItemRequestDto>)
    ensures o.result.Err? <==> forall u :: u in users ==> u.id != userId
    ensures o.result.Err? ==> o.result.error == NotFound && o.state == requests
    ensures o.result.Ok? ==>
      && |o.state| == |requests| + 1
      && o.state[..|requests|] == requests
      && var saved := o.state[|requests|];
      && (forall q :: q in requests ==> q.id < saved.id)
      && GetUserWithCheck(users, userId) == Ok(saved.requestor)
      && saved.description == description
      && saved.created.None?
      && o.result.value == ItemRequestDto(saved.id, description, None, None)
    ensures UniqueKeys(requests, RequestId) ==> UniqueKeys(o.state, RequestId)
  {
    match GetUserWithCheck(users, userId)
    case Err(e) => Outcome(requests, Err(e))
    case Ok(requestor) =>
      var saved := ItemRequest(NextKey(requests, RequestId), description, requestor, None);
      assert (requests + [saved])[..|requests|] == requests;
      Outcome(requests + [saved], Ok(ItemRequestDto(saved.id, description, None, None)))
  }

  /** The sort key of `ORDER BY created`: a missing creation time ranks below every present one. */
  function CreatedRank(q: ItemRequest): int {
    match q.created
    case None => 0
    case Some(t) => t + 1
  }

  /** Ranks order present creation times as time does, and put a missing one below all of them. */
  lemma CreatedRankOrder(p: ItemRequest, q: ItemRequest)
    ensures p.created.Some? && q.created.Some? ==>
      (CreatedRank(p) <= CreatedRank(q) <==> p.created.value <= q.created.value)
    ensures p.created.None? ==> CreatedRank(p) <= CreatedRank(q)
    ensures p.created.None? && q.created.Some? ==> CreatedRank(p) < CreatedRank(q)
  {
  }

  function RequestedBy(userId: int): ItemRequest -> bool {
    (q: ItemRequest) => q.requestor.id == userId
  }

  function RequestedByOther(userId: int): ItemRequest -> bool {
    (q: ItemRequest) => q.requestor.id != userId
  }

  /** `findAllByRequestorIsOrderByCreatedDesc`: the user's requests, newest first. */
  function OwnRequests(requests: seq<ItemRequest>, userId: int): (r: seq<ItemRequest>)
    ensures SortedDesc(CreatedRank, r)
    ensures forall q :: multiset(r)[q] == if q.requestor.id == userId then multiset(requests)[q] else 0
    ensures r == [] <==> forall q :: q in requests ==> q.requestor.id != userId
  {
    FilterMultiset(RequestedBy(userId), requests);
    FilterEmpty(RequestedBy(userId), requests);
    SortDesc(CreatedRank, Filter(RequestedBy(userId), requests))
  }

  /** `findAllByRequestorNotOrderByCreatedDesc`: everybody else's requests, newest first. */
  function OthersRequests(requests: seq<ItemRequest>, userId: int): (r: seq<ItemRequest>)
    ensures SortedDesc(CreatedRank, r)
    ensures forall q :: multiset(r)[q] == if q.requestor.id != userId then multiset(requests)[q] else 0
    ensures r == [] <==> forall q :: q in requests ==> q.requestor.id == userId
  {
    FilterMultiset(RequestedByOther(userId), requests);
    FilterEmpty(RequestedByOther(userId), requests);
    SortDesc(CreatedRank, Filter(RequestedByOther(userId), requests))
  }

  /** Between them, one's own requests and everybody else's are every request, each exactly once. */
  lemma OwnAndOthersPartition(requests: seq<ItemRequest>, userId: int)
    ensures multiset(OwnRequests(requests, userId)) + multiset(OthersRequests(requests, userId)) == multiset(requests)
  {
    var own := OwnRequests(requests, userId);
    var others := OthersRequests(requests, userId);
    forall q
      ensures (multiset(own) + multiset(others))[q] == multiset(requests)[q]
    {
      assert multiset(own)[q] == if q.requestor.id == userId then multiset(requests)[q] else 0;
      assert multiset(others)[q] == if q.requestor.id != userId then multiset(requests)[q] else 0;
    }
  }

  /**
   * `getRequestsForOwner`: the user must exist (`NotFound`); then the user's
   * requests, newest first, each with its answers; none gives the empty list.
   */
  function GetRequestsForOwner(users: seq<User>, requests: seq<ItemRequest>, items: seq<Item>, ownerId: int)
    : (r: Result<seq<ItemRequestDto>, Error>)
    ensures r.Err? <==> forall u :: u in users ==> u.id != ownerId
    ensures r.Err? ==> r.error == NotFound
    ensures r.Ok? ==> r.value == CreateItemRequestDtoList(OwnRequests(requests, ownerId), items)
    ensures r.Ok? ==> (r.value == [] <==> forall q :: q in requests ==> q.requestor.id != ownerId)
  {
    var requestor :- GetUserWithCheck(users, ownerId);
    var own := OwnRequests(requests, ownerId);
    if own == [] then Ok([]) else Ok(CreateItemRequestDtoList(own, items))
  }

  /**
   * `getAllRequests`: the user must exist (`NotFound`); then everybody else's
   * requests, newest first, each with its answers; none gives the empty list.
   */
  function GetAllRequests(users: seq<User>, requests: seq<ItemRequest>, items: seq<Item>, userId: int)
    : (r: Result<seq<ItemRequestDto>, Error>)
    ensures r.Err? <==> forall u :: u in users ==> u.id != userId
    ensures r.Err? ==> r.error == NotFound
    ensures r.Ok? ==> r.value == CreateItemRequestDtoList(OthersRequests(requests, userId), items)
    ensures r.Ok? ==> (r.value == [] <==> forall q :: q in requests ==> q.requestor.id == userId)
  {
    var requestor :- GetUserWithCheck(users, userId);
    var others := OthersRequests(requests, userId);
    if others == [] then Ok([]) else Ok(CreateItemRequestDtoList(others, items))
  }

  /** `getRequestById`: the request must exist (`NotFound`); then that request with its answers. */
  function GetRequestById(requests: seq<ItemRequest>, items: seq<Item>, requestId: int): (r: Result<ItemRequestDto, Error>)
    ensures r.Err? <==> forall q :: q in requests ==> q.id != requestId
    ensures r.Err? ==> r.error == NotFound
    ensures r.Ok? ==>
      && r.value.id == requestId
      && (exists q :: q in requests && q.id == requestId && r.value.description == q.description && r.value.created == q.created)
      && (r.value.items.None? <==> forall i :: i in items ==> i.request != Some(requestId))
      && (r.value.items.Some? ==> forall x :: x in r.value.items.value <==>
            exists i :: i in items && i.request == Some(requestId) && x == ToItemResponse(i))
    ensures r.Ok? && r.value.items.Some? ==> r.value.items.value == AnswersTo(items, requestId)
  {
    var request :- GetItemRequestWithCheck(requests, requestId);
    Ok(CreateItemRequestDtoList([request], items)[0])
  }
}

=== FILE: item_service.dfy ===
/**
 * `ItemServiceImpl` of the first snapshot, over the in-memory user store and
 * the first snapshot's item store: items are created for an existing owner,
 * changed or deleted only by their owner, and searched by text, where a
 * missing or blank text finds nothing without consulting the store.
 */
module ItemService {
  import opened Wrappers
  import opened Keyed
  import opened Text
  import opened Seqs
  import opened Entities
  import opened RepositoryUtil
  import UserService
  import ItemStorage
  import SrcItemStorage

  /**
   * `create`: the owner must exist (`NotFound`); the item is stored under a
   * fresh id with that user as owner, and the stored items are untouched.
   */
  function Create(users: map<int, User>, items: map<int, Item>, ownerId: int, item: Item)
    : (o: Outcome<map<int, Item>, Item>)
    ensures o.result.Err? <==> ownerId !in users
    ensures o.result.Err? ==> o.result.error == NotFound && o.state == items
    ensures o.result.Ok? ==>
      var created := o.result.value;
      && created.owner == users[ownerId]
      && created == item.(id := created.id, owner := created.owner)
      && created.id !in items
      && o.state.Keys == items.Keys + {created.id}
      && o.state[created.id] == created
      && forall k :: k in items ==> o.state[k] == items[k]
    ensures KeysMatch(items, ItemId) ==> KeysMatch(o.state, ItemId)
  {
    match UserService.Get(users, ownerId)
    case Err(e) => Outcome(items, Err(e))
    case Ok(user) => ItemStorage.Create(items, item.(owner := user))
  }

  /** `getItemWithExistingCheck` and `get`: an absent item fails `NotFound`. */
  function Get(items: map<int, Item>, id: int): (r: Result<Item, Error>)
    ensures r.Ok? <==> id in items
    ensures r.Ok? ==> r.value == items[id]
    ensures r.Err? ==> r.error == NotFound
  {
    match SrcItemStorage.Get(items, id)
    case None => Err(NotFound)
    case Some(item) => Ok(item)
  }

  /**
   * The guards of `update` and `delete`: the acting user and the item must
   * exist (`NotFound`, the user checked first) and the user must own the item
   * (`IllegalOwner`).
   */
  function OwnedItem(users: map<int, User>, items: map<int, Item>, ownerId: int, itemId: int): (r: Result<Item, Error>)
    ensures r.Err? && r.error == NotFound <==> ownerId !in users || itemId !in items
    ensures r.Err? && r.error == IllegalOwner <==>
      ownerId in users && itemId in items && items[itemId].owner.id != users[ownerId].id
    ensures r.Err? ==> r.error == NotFound || r.error == IllegalOwner
    ensures r.Ok? ==>
      itemId in items && r.value == items[itemId] && ownerId in users && items[itemId].owner.id == users[ownerId].id
  {
    var user :- UserService.Get(users, ownerId);
    var item :- Get(items, itemId);
    var _ :- CheckOwnerRightsForItem(item, user);
    Ok(item)
  }

  /**
   * `update`: after the guards, the present fields replace the stored name,
   * description and availability; id, owner and request stay. The item is
   * stored again under its id; nothing changes on failure.
   */
  function Update(users: map<int, User>, items: map<int, Item>, ownerId: int, itemId: int,
                  name: Option<string>, description: Option<string>, available: Option<bool>)
    : (o: Outcome<map<int, Item>, Item>)
    ensures o.result.Err? <==> OwnedItem(users, items, ownerId, itemId).Err?
    ensures o.result.Err? ==> o.result == OwnedItem(users, items, ownerId, itemId) && o.state == items
    ensures o.result.Ok? ==>
      var stored := items[itemId];
      var updated := o.result.value;
      && updated.id == stored.id && updated.owner == stored.owner && updated.request == stored.request
      && updated.name == Patched(stored.name, name)
      && updated.description == Patched(stored.description, description)
      && updated.available == Patched(stored.available, available)
      && o.state == items[updated.id := updated]
    ensures KeysMatch(items, ItemId) ==> KeysMatch(o.state, ItemId)
  {
    match OwnedItem(users, items, ownerId, itemId)
    case Err(e) => Outcome(items, Err(e))
    case Ok(item) =>
      var updated := item.(name := Patched(item.name, name),
                           description := Patched(item.description, description),
                           available := Patched(item.available, available));
      Outcome(ItemStorage.Update(items, updated), Ok(updated))
  }

  /** `delete`: after the guards, exactly the item's key is removed and the item is returned. */
  function Delete(users: map<int, User>, items: map<int, Item>, ownerId: int, itemId: int)
    : (o: Outcome<map<int, Item>, Item>)
    ensures o.result.Err? <==> OwnedItem(users, items, ownerId, itemId).Err?
    ensures o.result.Err? ==> o.result == OwnedItem(users, items, ownerId, itemId) && o.state == items
    ensures o.result.Ok? ==>
      && o.result.value == items[itemId]
      && o.state.Keys == items.Keys - {itemId}
      && forall k :: k in o.state ==> o.state[k] == items[k]
    ensures KeysMatch(items, ItemId) ==> KeysMatch(o.state, ItemId)
  {
    match OwnedItem(users, items, ownerId, itemId)
    case Err(e) => Outcome(items, Err(e))
    case Ok(item) => Outcome(SrcItemStorage.Delete(items, itemId), Ok(item))
  }

  /** `search`: a missing or blank text finds nothing; any other text finds the store's matches. */
  function Search(items: map<int, Item>, text: Option<string>): (r: seq<Item>)
    ensures text.None? || IsBlank(text.value) ==> r == []
    ensures text.Some? && !IsBlank(text.value) ==>
      forall x :: x in r <==> Stored(items, x) && ItemStorage.Matches(x, text.value)
    ensures KeysMatch(items, ItemId) ==> NoDup(r)
  {
    if text.None? || IsBlank(text.value) then [] else ItemStorage.Search(items, text.value)
  }

  /**
   * `getByOwner`: straight to the store, with no check that the owner exists;
   * an unknown owner simply has no items.
   */
  function GetByOwner(items: map<int, Item>, ownerId: int): (r: seq<Item>)
    ensures forall x :: x in r <==> Stored(items, x) && x.owner.id == ownerId
    ensures (forall k :: k in items ==> items[k].owner.id != ownerId) ==> r == []
    ensures KeysMatch(items, ItemId) ==> NoDup(r)
  {
    var r := ItemStorage.GetByOwner(items, ownerId);
    assert r != [] ==> r[0] in r;
    r
  }

  /** The blank-text guard matters: the store alone would answer the empty text with every available item. */
  lemma EmptyTextShortCircuits(items: map<int, Item>)
    ensures Search(items, Some("")) == []
    ensures forall x :: Stored(items, x) && x.available ==> x in ItemStorage.Search(items, "")
  {
    ItemStorage.EmptySearchFindsAllAvailable(items);
  }
}

=== FILE: item_storage.dfy ===
/**
 * `InMemoryItemStorage` of the server: items in a `HashMap<Long, Item>` keyed
 * by id, with a fresh id of the largest id in use plus one, lookups and
 * deletion that fail `NotFound` on a missing id, and two filters over the
 * values: by owner, and a case-insensitive text search over name and
 * description that only ever returns available items.
 */
module ItemStorage {
  import opened Wrappers
  import opened Seqs
  import opened Keyed
  import opened Text
  import opened Entities

  /** `create`: a copy of `item` under a fresh id; the entries already stored are untouched. */
  function Create(items: map<int, Item>, item: Item): (o: Outcome<map<int, Item>, Item>)
    ensures o.result.Ok?
    ensures var created := o.result.value;
      && created.id !in items
      && (forall k :: k in items ==> k < created.id)
      && (items == map[] ==> created.id == 1)
      && (items != map[] ==> created.id - 1 in items)
      && created == item.(id := created.id)
      && o.state.Keys == items.Keys + {created.id}
      && o.state[created.id] == created
      && forall k :: k in items ==> o.state[k] == items[k]
    ensures KeysMatch(items, ItemId) ==> KeysMatch(o.state, ItemId)
  {
    var created := item.(id := NewId(items.Keys));
    Outcome(items[created.id := created], Ok(created))
  }

  /** `update`: stores `item` under its id, inserting or overwriting; every other entry is untouched. */
  function Update(items: map<int, Item>, item: Item): (r: map<int, Item>)
    ensures r.Keys == items.Keys + {item.id}
    ensures r[item.id] == item
    ensures forall k :: k in items && k != item.id ==> r[k] == items[k]
    ensures KeysMatch(items, ItemId) ==> KeysMatch(r, ItemId)
  {
    items[item.id := item]
  }

  /** `deleteById`: a missing id fails `NotFound` and changes nothing; otherwise exactly that key goes. */
  function DeleteById(items: map<int, Item>, id: int): (o: Outcome<map<int, Item>, ()>)
    ensures o.result.Err? <==> id !in items
    ensures o.result.Err? ==> o.result.error == NotFound && o.state == items
    ensures o.result.Ok? ==>
      && o.state.Keys == items.Keys - {id}
      && forall k :: k in o.state ==> o.state[k] == items[k]
    ensures KeysMatch(items, ItemId) ==> KeysMatch(o.state, ItemId)
  {
    if id !in items then Outcome(items, Err(NotFound))
    else Outcome(items - {id}, Ok(()))
  }

  function OwnedBy(ownerId: int): Item -> bool {
    (i: Item) => i.owner.id == ownerId
  }

  /** `getByOwner`: the stored items of the owner, in iteration order. */
  function GetByOwner(items: map<int, Item>, ownerId: int): (r: seq<Item>)
    ensures forall x :: x in r <==> Stored(items, x) && x.owner.id == ownerId
    ensures |r| <= |items.Keys|
    ensures KeysMatch(items, ItemId) ==> NoDup(r)
  {
    var all := ValuesInKeyOrder(items);
    FilterMembers(OwnedBy(ownerId), all);
    assert KeysMatch(items, ItemId) ==> NoDup(Filter(OwnedBy(ownerId), all)) by {
      if KeysMatch(items, ItemId) {
        ValuesNoDup(items, ItemId);
        FilterNoDup(OwnedBy(ownerId), all);
      }
    }
    Filter(OwnedBy(ownerId), all)
  }

  /** The search condition: available, and the text occurs in the name or the description, ignoring case. */
  predicate Matches(item: Item, text: string) {
    && item.available
    && (Contains(Lower(item.name), Lower(text)) || Contains(Lower(item.description), Lower(text)))
  }

  function MatchesText(text: string): Item -> bool {
    (i: Item) => Matches(i, text)
  }

  /** `search`: the stored items matching the text, in iteration order. */
  function Search(items: map<int, Item>, text: string): (r: seq<Item>)
    ensures forall x :: x in r <==> Stored(items, x) && Matches(x, text)
    ensures forall x :: x in r ==> x.available
    ensures |r| <= |items.Keys|
    ensures KeysMatch(items, ItemId) ==> NoDup(r)
  {
    var all := ValuesInKeyOrder(items);
    FilterMembers(MatchesText(text), all);
    assert KeysMatch(items, ItemId) ==> NoDup(Filter(MatchesText(text), all)) by {
      if KeysMatch(items, ItemId) {
        ValuesNoDup(items, ItemId);
        FilterNoDup(MatchesText(text), all);
      }
    }
    Filter(MatchesText(text), all)
  }

  /** The empty text occurs in every name, so it finds every available item. */
  lemma EmptySearchFindsAllAvailable(items: map<int, Item>)
    ensures forall x :: x in Search(items, "") <==> Stored(items, x) && x.available
  {
    forall x: Item
      ensures Matches(x, "") <==> x.available
    {
      assert Lower("") == "";
      EmptyOccursEverywhere(Lower(x.name));
    }
  }

  /** Lower-casing twice is lower-casing once. */
  lemma LowerIdempotent(s: string)
    ensures Lower(Lower(s)) == Lower(s)
  {
    assert forall i :: 0 <= i < |s| ==> LowerChar(LowerChar(s[i])) == LowerChar(s[i]);
  }

  /** The search ignores the case of the text. */
  lemma SearchIgnoresCase(items: map<int, Item>, text: string)
    ensures Search(items, Lower(text)) == Search(items, text)
  {
    LowerIdempotent(text);
    FilterEquivalent(MatchesText(Lower(text)), MatchesText(text), ValuesInKeyOrder(items));
  }
}

=== FILE: keyed.dfy ===
/**
 * The `HashMap<Long, T>` stores of the in-memory storages: allocation of a new
 * id as the largest key plus one (one for an empty store), and iteration over
 * the entries. Iteration is modelled in ascending key order, the order a
 * `HashMap` with small non-negative `Long` keys visits its buckets in.
 */
module Keyed {
  import opened Wrappers
  import opened Seqs
  import opened Entities

  /** `getById` of the in-memory user and item stores: the entry under the id, or `NotFound`. */
  function GetById<T>(m: map<int, T>, id: int): (r: Result<T, Error>)
    ensures r.Ok? <==> id in m
    ensures r.Ok? ==> r.value == m[id]
    ensures r.Err? ==> r.error == NotFound
  {
    if id !in m then Err(NotFound) else Ok(m[id])
  }

  /** Every finite non-empty set of ids has a largest element. */
  lemma {:induction false} MaxExists(keys: set<int>)
    requires keys != {}
    ensures exists k :: k in keys && forall j :: j in keys ==> j <= k
    decreases |keys|
  {
    if forall k :: k !in keys {
      assert false;
    }
    var x :| x in keys;
    var top := x;
    if keys != {x} {
      var rest := keys - {x};
      MaxExists(rest);
      var m :| m in rest && forall j :: j in rest ==> j <= m;
      top := if x > m then x else m;
      forall j | j in keys
        ensures j <= top
      {
        if j != x {
          assert j in rest;
        }
      }
    }
    assert top in keys && forall j :: j in keys ==> j <= top;
  }

  /** Every finite non-empty set of ids has a smallest element. */
  lemma {:induction false} MinExists(keys: set<int>)
    requires keys != {}
    ensures exists k :: k in keys && forall j :: j in keys ==> k <= j
    decreases |keys|
  {
    if forall k :: k !in keys {
      assert false;
    }
    var x :| x in keys;
    var bottom := x;
    if keys != {x} {
      var rest := keys - {x};
      MinExists(rest);
      var m :| m in rest && forall j :: j in rest ==> m <= j;
      bottom := if x < m then x else m;
      forall j | j in keys
        ensures bottom <= j
      {
        if j != x {
          assert j in rest;
        }
      }
    }
    assert bottom in keys && forall j :: j in keys ==> bottom <= j;
  }

  function MaxKey(keys: set<int>): (k: int)
    requires keys != {}
    ensures k in keys && forall j :: j in keys ==> j <= k
  {
    MaxExists(keys);
    var k :| k in keys && forall j :: j in keys ==> j <= k; k
  }

  function MinKey(keys: set<int>): (k: int)
    requires keys != {}
    ensures k in keys && forall j :: j in keys ==> k <= j
  {
    MinExists(keys);
    var k :| k in keys && forall j :: j in keys ==> k <= j; k
  }

  /**
   * `generateNewId`: the largest key plus one, or `0 + 1` for an empty store.
   * The id is fresh, and it is exactly one above the largest key in use.
   */
  function NewId(keys: set<int>): (id: int)
    ensures id !in keys
    ensures forall k :: k in keys ==> k < id
    ensures keys == {} ==> id == 1
    ensures keys != {} ==> id - 1 in keys
  {
    if keys == {} then 1 else MaxKey(keys) + 1
  }

  predicate Ascending(s: seq<int>) {
    forall i, j :: 0 <= i < j < |s| ==> s[i] < s[j]
  }

  /** The keys, each once, smallest first. */
  function KeysInOrder(keys: set<int>): (r: seq<int>)
    ensures Ascending(r)
    ensures forall k :: k in r <==> k in keys
    ensures |r| == |keys|
    decreases |keys|
  {
    if keys == {} then []
    else
      var k := MinKey(keys);
      var rest := KeysInOrder(keys - {k});
      assert forall j :: j in rest ==> k < j;
      [k] + rest
  }

  /** Every entry is stored under its own id. */
  predicate KeysMatch<T>(m: map<int, T>, id: T -> int) {
    forall k :: k in m ==> id(m[k]) == k
  }

  /** `x` is one of the values of `m`: some key maps to it. */
  predicate Stored<T(==)>(m: map<int, T>, x: T) {
    exists k :: k in m && m[k] == x
  }

  /** The values stored under `ks`, in the order of `ks`. */
  function ValuesAt<T>(m: map<int, T>, ks: seq<int>): (r: seq<T>)
    requires forall i :: 0 <= i < |ks| ==> ks[i] in m
    ensures |r| == |ks|
    ensures forall i :: 0 <= i < |ks| ==> r[i] == m[ks[i]]
  {
    seq(|ks|, i requires 0 <= i < |ks| => m[ks[i]])
  }

  /** The values of a map, visited in ascending key order: each entry once. */
  function ValuesInKeyOrder<T(==,!new)>(m: map<int, T>): (r: seq<T>)
    ensures r == ValuesAt(m, KeysInOrder(m.Keys))
    ensures forall x :: x in r <==> Stored(m, x)
  {
    var ks := KeysInOrder(m.Keys);
    ValuesAtStored(m, ks);
    ValuesAt(m, ks)
  }

  /** With every entry stored under its own id, iteration meets no value twice. */
  lemma ValuesNoDup<T(!new)>(m: map<int, T>, id: T -> int)
    requires KeysMatch(m, id)
    ensures NoDup(ValuesInKeyOrder(m))
  {
    var ks := KeysInOrder(m.Keys);
    var vs := ValuesInKeyOrder(m);
    forall i, j | 0 <= i < j < |vs|
      ensures vs[i] != vs[j]
    {
      assert ks[i] in m && ks[j] in m;
      assert id(vs[i]) == ks[i] && id(vs[j]) == ks[j];
    }
  }

  /** Listing the values under every key of the map lists exactly the stored values. */
  lemma ValuesAtStored<T(!new)>(m: map<int, T>, ks: seq<int>)
    requires forall i :: 0 <= i < |ks| ==> ks[i] in m
    requires forall k :: k in m ==> k in ks
    ensures forall x :: x in ValuesAt(m, ks) <==> Stored(m, x)
  {
    var r := ValuesAt(m, ks);
    forall x | Stored(m, x)
      ensures x in r
    {
      var k :| k in m && m[k] == x;
      var i :| 0 <= i < |ks| && ks[i] == k;
      assert r[i] == x;
    }
    forall x | x in r
      ensures Stored(m, x)
    {
      var i :| 0 <= i < |r| && r[i] == x;
      var k := ks[i];
      assert k in m && m[k] == x;
    }
  }

  /** The first value in key order that passes `p` sits under the smallest key whose value passes `p`. */
  lemma FirstInKeyOrderSmallest<T(!new)>(m: map<int, T>, p: T -> bool, i: nat)
    requires IndexWhere(p, ValuesInKeyOrder(m)) == Some(i)
    ensures i < |KeysInOrder(m.Keys)| && KeysInOrder(m.Keys)[i] in m && p(m[KeysInOrder(m.Keys)[i]])
    ensures forall k :: k in m && p(m[k]) ==> KeysInOrder(m.Keys)[i] <= k
  {
    var ks := KeysInOrder(m.Keys);
    var vs := ValuesInKeyOrder(m);
    forall k | k in m && p(m[k])
      ensures ks[i] <= k
    {
      var j :| 0 <= j < |ks| && ks[j] == k;
      assert p(vs[j]);
      assert i <= j;
      assert ks[i] <= ks[j];
    }
  }

  /** No value in key order passes `p` exactly when no stored entry does. */
  lemma NoneInKeyOrder<T(!new)>(m: map<int, T>, p: T -> bool)
    ensures (forall x :: x in ValuesInKeyOrder(m) ==> !p(x)) <==> (forall k :: k in m ==> !p(m[k]))
  {
    var r := ValuesInKeyOrder(m);
    if forall x :: x in r ==> !p(x) {
      forall k | k in m
        ensures !p(m[k])
      {
        assert Stored(m, m[k]);
      }
    }
  }

}

=== FILE: repository_util.dfy ===
/**
 * `RepositoryUtil`: look a row up by id or fail `NotFound`, and check that a
 * user owns an item or fail `IllegalOwner`.
 */
module RepositoryUtil {
  import opened Wrappers
  import opened Tables
  import opened Entities

  /** `getUserWithCheck`. */
  function GetUserWithCheck(users: seq<User>, id: int): (r: Result<User, Error>)
    ensures r.Ok? ==> r.value in users && r.value.id == id
    ensures r.Err? <==> forall u :: u in users ==> u.id != id
    ensures r.Err? ==> r.error == NotFound
  {
    match Find(users, UserId, id)
    case Some(u) => Ok(u)
    case None => Err(NotFound)
  }

  /** `getItemWithCheck`. */
  function GetItemWithCheck(items: seq<Item>, id: int): (r: Result<Item, Error>)
    ensures r.Ok? ==> r.value in items && r.value.id == id
    ensures r.Err? <==> forall i :: i in items ==> i.id != id
    ensures r.Err? ==> r.error == NotFound
  {
    match Find(items, ItemId, id)
    case Some(i) => Ok(i)
    case None => Err(NotFound)
  }

  /** `getItemRequestWithCheck`. */
  function GetItemRequestWithCheck(requests: seq<ItemRequest>, id: int): (r: Result<ItemRequest, Error>)
    ensures r.Ok? ==> r.value in requests && r.value.id == id
    ensures r.Err? <==> forall q :: q in requests ==> q.id != id
    ensures r.Err? ==> r.error == NotFound
  {
    match Find(requests, RequestId, id)
    case Some(q) => Ok(q)
    case None => Err(NotFound)
  }

  /** `checkOwnerRightsForItem`: passes exactly when the item's owner is the user. */
  function CheckOwnerRightsForItem(item: Item, user: User): (r: Result<(), Error>)
    ensures r.Ok? <==> item.owner.id == user.id
    ensures r.Err? ==> r.error == IllegalOwner
  {
    if item.owner.id != user.id then Err(IllegalOwner) else Ok(())
  }

  /** Under the primary-key constraint a lookup finds the user whenever one with the id is stored. */
  lemma GetUserFindsStored(users: seq<User>, u: User)
    requires UniqueKeys(users, UserId)
    requires u in users
    ensures GetUserWithCheck(users, u.id) == Ok(u)
  {
    FindUnique(users, UserId, u);
  }
}

=== FILE: seqs.dfy ===
/**
 * Sequence operations the stores and queries are built from: filtering (a
 * WHERE clause or a stream filter), a stable sort on an integer key in
 * descending order (ORDER BY ... DESC), arg-max (the first row of a window
 * partition), de-duplication (SQL `IN` list semantics) and first-match lookup
 * (a primary-key `findById`).
 */
module Seqs {
  import opened Wrappers

  predicate NoDup<T(==)>(s: seq<T>) {
    forall i, j :: 0 <= i < j < |s| ==> s[i] != s[j]
  }

  /** The elements of `s` satisfying `p`, in their order in `s`. */
  function Filter<T(!new)>(p: T -> bool, s: seq<T>): (r: seq<T>)
    ensures |r| <= |s|
  {
    if s == [] then [] else (if p(s[0]) then [s[0]] else []) + Filter(p, s[1..])
  }

  /** A filter keeps every occurrence of a satisfying element and drops every other one. */
  lemma {:induction false} FilterMultiset<T(!new)>(p: T -> bool, s: seq<T>)
    ensures forall x :: multiset(Filter(p, s))[x] == if p(x) then multiset(s)[x] else 0
  {
    if s != [] {
      FilterMultiset(p, s[1..]);
      assert s == [s[0]] + s[1..];
    }
  }

  lemma FilterMembers<T(!new)>(p: T -> bool, s: seq<T>)
    ensures forall x :: x in Filter(p, s) <==> x in s && p(x)
  {
    FilterMultiset(p, s);
    forall x
      ensures x in Filter(p, s) <==> x in s && p(x)
    {
      assert x in Filter(p, s) <==> x in multiset(Filter(p, s));
      assert x in s <==> x in multiset(s);
    }
  }

  /** A sequence that applies `f` to each element of `s` holds the images of the members of `s` and nothing else. */
  lemma MapMembers<T, U>(f: T -> U, s: seq<T>, r: seq<U>)
    requires |r| == |s| && forall i :: 0 <= i < |s| ==> r[i] == f(s[i])
    ensures forall y :: y in r ==> exists x :: x in s && y == f(x)
    ensures forall x :: x in s ==> f(x) in r
  {
    forall y | y in r
      ensures exists x :: x in s && y == f(x)
    {
      var i :| 0 <= i < |r| && r[i] == y;
      assert s[i] in s;
    }
    forall x | x in s
      ensures f(x) in r
    {
      var i :| 0 <= i < |s| && s[i] == x;
      assert r[i] == f(x);
    }
  }

  /** A filter comes out empty exactly when nothing satisfies the predicate. */
  lemma FilterEmpty<T(!new)>(p: T -> bool, s: seq<T>)
    ensures Filter(p, s) == [] <==> forall x :: x in s ==> !p(x)
  {
    FilterMembers(p, s);
    if Filter(p, s) != [] {
      assert Filter(p, s)[0] in Filter(p, s);
    }
  }

  /** A filter of a sequence without repetitions has none either. */
  lemma {:induction false} FilterNoDup<T(!new)>(p: T -> bool, s: seq<T>)
    requires NoDup(s)
    ensures NoDup(Filter(p, s))
  {
    if s != [] {
      var tail := s[1..];
      assert NoDup(tail) by {
        forall i, j | 0 <= i < j < |tail|
          ensures tail[i] != tail[j]
        {
          assert tail[i] == s[i + 1] && tail[j] == s[j + 1];
        }
      }
      FilterNoDup(p, tail);
      if p(s[0]) {
        var rest := Filter(p, tail);
        FilterMembers(p, tail);
        assert s[0] !in tail by {
          forall k | 0 <= k < |tail|
            ensures tail[k] != s[0]
          {
            assert tail[k] == s[k + 1];
          }
        }
        var r := [s[0]] + rest;
        forall i, j | 0 <= i < j < |r|
          ensures r[i] != r[j]
        {
          assert r[j] == rest[j - 1];
          if i > 0 {
            assert r[i] == rest[i - 1];
          }
        }
      }
    }
  }

  /** A filter every element passes keeps the sequence. */
  lemma {:induction false} FilterAll<T(!new)>(p: T -> bool, s: seq<T>)
    ensures (forall x :: x in s ==> p(x)) ==> Filter(p, s) == s
  {
    if s != [] && forall x :: x in s ==> p(x) {
      FilterAll(p, s[1..]);
    }
  }

  lemma FilterCons<T(!new)>(p: T -> bool, x: T, s: seq<T>)
    ensures Filter(p, [x] + s) == (if p(x) then [x] else []) + Filter(p, s)
  {
    assert ([x] + s)[1..] == s;
  }

  /** Filtering twice is filtering once by the conjunction. */
  lemma {:induction false} FilterFilter<T(!new)>(p: T -> bool, q: T -> bool, pq: T -> bool, s: seq<T>)
    requires forall x :: pq(x) == (q(x) && p(x))
    ensures Filter(p, Filter(q, s)) == Filter(pq, s)
  {
    if s != [] {
      FilterFilter(p, q, pq, s[1..]);
      if q(s[0]) {
        assert Filter(q, s) == [s[0]] + Filter(q, s[1..]);
        FilterCons(p, s[0], Filter(q, s[1..]));
      } else {
        assert Filter(q, s) == Filter(q, s[1..]);
      }
    }
  }

  /** Filters by pointwise-equal predicates agree. */
  lemma {:induction false} FilterEquivalent<T(!new)>(p: T -> bool, q: T -> bool, s: seq<T>)
    requires forall x :: p(x) == q(x)
    ensures Filter(p, s) == Filter(q, s)
  {
    if s != [] {
      FilterEquivalent(p, q, s[1..]);
    }
  }

  predicate SortedDesc<T>(key: T -> int, s: seq<T>) {
    forall i, j :: 0 <= i < j < |s| ==> key(s[i]) >= key(s[j])
  }

  lemma {:induction false} FilterSorted<T(!new)>(p: T -> bool, key: T -> int, s: seq<T>)
    requires SortedDesc(key, s)
    ensures SortedDesc(key, Filter(p, s))
  {
    if s != [] {
      FilterSorted(p, key, s[1..]);
      var rest := Filter(p, s[1..]);
      FilterMembers(p, s[1..]);
      forall y | y in rest
        ensures key(y) <= key(s[0])
      {
        var k :| 0 <= k < |s[1..]| && s[1..][k] == y;
        assert s[k + 1] == y;
      }
    }
  }

  /** In a sequence sorted largest first, nothing after the head has a larger key. */
  lemma HeadIsLargest<T>(key: T -> int, s: seq<T>)
    requires SortedDesc(key, s) && s != []
    ensures forall y :: y in multiset(s[1..]) ==> key(y) <= key(s[0])
  {
    forall y | y in multiset(s[1..])
      ensures key(y) <= key(s[0])
    {
      var k :| 0 <= k < |s[1..]| && s[1..][k] == y;
      assert s[k + 1] == y;
    }
  }

  /** A head no smaller than anything in a sorted tail keeps the sequence sorted. */
  lemma SortedCons<T>(key: T -> int, h: T, rest: seq<T>)
    requires SortedDesc(key, rest)
    requires forall i :: 0 <= i < |rest| ==> key(rest[i]) <= key(h)
    ensures SortedDesc(key, [h] + rest)
  {
    var s := [h] + rest;
    forall i, j | 0 <= i < j < |s|
      ensures key(s[i]) >= key(s[j])
    {
      assert s[j] == rest[j - 1];
      if i > 0 {
        assert s[i] == rest[i - 1];
      }
    }
  }

  /** `x` placed before the first element whose key is not larger: ties keep `x` first. */
  function InsertDesc<T>(key: T -> int, x: T, s: seq<T>): (r: seq<T>)
    requires SortedDesc(key, s)
    ensures SortedDesc(key, r)
    ensures multiset(r) == multiset(s) + multiset{x}
  {
    if s == [] || key(x) >= key(s[0]) then
      SortedCons(key, x, s);
      [x] + s
    else
      assert s == [s[0]] + s[1..];
      var rest := InsertDesc(key, x, s[1..]);
      HeadIsLargest(key, s);
      assert forall i :: 0 <= i < |rest| ==> key(rest[i]) <= key(s[0]) by {
        forall i | 0 <= i < |rest|
          ensures key(rest[i]) <= key(s[0])
        {
          assert rest[i] in multiset(rest);
        }
      }
      SortedCons(key, s[0], rest);
      [s[0]] + rest
  }

  /** A stable sort by `key`, largest first: elements with equal keys keep their order in `s`. */
  function SortDesc<T>(key: T -> int, s: seq<T>): (r: seq<T>)
    ensures SortedDesc(key, r)
    ensures multiset(r) == multiset(s)
    ensures |r| == |s|
  {
    if s == [] then []
    else
      assert s == [s[0]] + s[1..];
      InsertDesc(key, s[0], SortDesc(key, s[1..]))
  }

  lemma SortCons<T>(key: T -> int, x: T, s: seq<T>)
    ensures SortDesc(key, [x] + s) == InsertDesc(key, x, SortDesc(key, s))
  {
    assert ([x] + s)[1..] == s;
  }

  /** Inserting in front of a sorted sequence commutes with filtering. */
  lemma FilterInsertFront<T(!new)>(p: T -> bool, key: T -> int, x: T, s: seq<T>)
    requires SortedDesc(key, s)
    requires s == [] || key(x) >= key(s[0])
    ensures && SortedDesc(key, Filter(p, s))
            && Filter(p, [x] + s) == if p(x) then InsertDesc(key, x, Filter(p, s)) else Filter(p, s)
  {
    FilterSorted(p, key, s);
    FilterCons(p, x, s);
    var fs := Filter(p, s);
    if fs != [] {
      FilterMembers(p, s);
      assert fs[0] in s;
      var k :| 0 <= k < |s| && s[k] == fs[0];
      assert key(fs[0]) <= key(s[0]);
    }
  }

  /** Past a head with a larger key, insertion keeps the head and inserts into the tail. */
  lemma InsertDescPast<T>(key: T -> int, x: T, s: seq<T>)
    requires SortedDesc(key, s) && s != [] && key(x) < key(s[0])
    ensures SortedDesc(key, s[1..])
    ensures InsertDesc(key, x, s) == [s[0]] + InsertDesc(key, x, s[1..])
  {
  }

  /** Inserting into a sorted sequence commutes with filtering. */
  lemma {:induction false} FilterInsert<T(!new)>(p: T -> bool, key: T -> int, x: T, s: seq<T>)
    requires SortedDesc(key, s)
    ensures && SortedDesc(key, Filter(p, s))
            && Filter(p, InsertDesc(key, x, s)) == if p(x) then InsertDesc(key, x, Filter(p, s)) else Filter(p, s)
  {
    if s == [] || key(x) >= key(s[0]) {
      FilterInsertFront(p, key, x, s);
    } else {
      var tail := s[1..];
      assert s == [s[0]] + tail;
      var rest := InsertDesc(key, x, tail);
      InsertDescPast(key, x, s);
      FilterCons(p, s[0], rest);
      FilterInsert(p, key, x, tail);
      FilterCons(p, s[0], tail);
      FilterSorted(p, key, s);
      var ft := Filter(p, tail);
      if p(s[0]) {
        assert Filter(p, s) == [s[0]] + ft;
        assert Filter(p, InsertDesc(key, x, s)) == [s[0]] + Filter(p, rest);
        if p(x) {
          var fs := [s[0]] + ft;
          assert fs[0] == s[0] && fs[1..] == ft;
          InsertDescPast(key, x, fs);
        }
      } else {
        assert Filter(p, s) == ft;
        assert Filter(p, InsertDesc(key, x, s)) == Filter(p, rest);
      }
    }
  }

  /** Selecting from a sorted sequence and sorting a selection give the same sequence. */
  lemma {:induction false} FilterSort<T(!new)>(p: T -> bool, key: T -> int, s: seq<T>)
    ensures Filter(p, SortDesc(key, s)) == SortDesc(key, Filter(p, s))
  {
    if s != [] {
      var sorted := SortDesc(key, s[1..]);
      var picked := Filter(p, s[1..]);
      FilterSort(p, key, s[1..]);
      assert SortDesc(key, s) == InsertDesc(key, s[0], sorted);
      FilterInsert(p, key, s[0], sorted);
      if p(s[0]) {
        assert Filter(p, s) == [s[0]] + picked;
        SortCons(key, s[0], picked);
      } else {
        assert Filter(p, s) == picked;
      }
    }
  }

  /** An element of maximal rank; the first such one on ties. */
  function ArgMax<T>(rank: T -> int, s: seq<T>): (r: T)
    requires |s| > 0
    ensures r in s
    ensures forall y :: y in s ==> rank(y) <= rank(r)
  {
    if |s| == 1 then s[0]
    else
      assert s == [s[0]] + s[1..];
      var m := ArgMax(rank, s[1..]);
      if rank(s[0]) >= rank(m) then s[0] else m
  }

  /** The distinct values of `s`, in order of first occurrence. */
  function Dedup<T(==,!new)>(s: seq<T>): (r: seq<T>)
    ensures forall x :: x in r <==> x in s
    ensures NoDup(r)
  {
    if s == [] then []
    else
      var init := Dedup(s[..|s| - 1]);
      assert s == s[..|s| - 1] + [s[|s| - 1]];
      if s[|s| - 1] in init then init else init + [s[|s| - 1]]
  }

  /** The index of the first element satisfying `p`. */
  function IndexWhere<T(!new)>(p: T -> bool, s: seq<T>): (r: Option<nat>)
    ensures r.Some? ==> r.value < |s| && p(s[r.value]) && forall j :: 0 <= j < r.value ==> !p(s[j])
    ensures r.None? ==> forall j :: 0 <= j < |s| ==> !p(s[j])
    ensures r.None? <==> forall x :: x in s ==> !p(x)
  {
    if s == [] then None
    else if p(s[0]) then Some(0)
    else
      match IndexWhere(p, s[1..])
      case None => None
      case Some(i) => Some(i + 1)
  }

  /** Replacing the first match by another match leaves it the first match. */
  lemma IndexWhereUpdate<T(!new)>(p: T -> bool, s: seq<T>, k: nat, v: T)
    requires IndexWhere(p, s) == Some(k)
    requires p(v)
    ensures IndexWhere(p, s[k := v]) == Some(k)
  {
    var t := s[k := v];
    assert t[k] == v;
    assert forall j :: 0 <= j < k ==> t[j] == s[j] && !p(t[j]);
  }

  /** The first element satisfying `p`. */
  function FindWhere<T(!new)>(p: T -> bool, s: seq<T>): (r: Option<T>)
    ensures r.Some? ==> r.value in s && p(r.value)
    ensures r.None? <==> forall x :: x in s ==> !p(x)
  {
    match IndexWhere(p, s)
    case None => None
    case Some(i) => Some(s[i])
  }
}

=== FILE: server_user_service.dfy ===
/**
 * `UserServiceImpl` of the server: users in a JPA table. Creation saves
 * whatever it is given and leaves duplicate emails to the table's unique
 * constraint (not part of this model); update and delete look the user up
 * first and fail `NotFound` when there is none.
 */
module ServerUserService {
  import opened Wrappers
  import opened Tables
  import opened Entities
  import opened RepositoryUtil

  /** `create`: the new user is appended under the next identity value, whatever its email. */
  function Create(users: seq<User>, name: string, email: string): (o: Outcome<seq<User>, User>)
    ensures o.result.Ok?
    ensures var created := o.result.value;
      && o.state == users + [created]
      && created.name == name && created.email == email
      && forall u :: u in users ==> u.id < created.id
    ensures UniqueKeys(users, UserId) ==> UniqueKeys(o.state, UserId)
  {
    var created := User(NextKey(users, UserId), name, email);
    Outcome(users + [created], Ok(created))
  }

  /** Creation succeeds even when a stored user already has the email. */
  lemma CreateSkipsEmailCheck(users: seq<User>, name: string, u: User)
    requires u in users
    ensures Create(users, name, u.email).result.Ok?
    ensures u in Create(users, name, u.email).state
    ensures Create(users, name, u.email).result.value.email == u.email
    ensures Create(users, name, u.email).result.value.id != u.id
  {
  }

  /** `get`. */
  function Get(users: seq<User>, id: int): (r: Result<User, Error>)
    ensures r.Err? <==> forall u :: u in users ==> u.id != id
    ensures r.Err? ==> r.error == NotFound
    ensures r.Ok? ==> r.value in users && r.value.id == id
  {
    GetUserWithCheck(users, id)
  }

  /**
   * `update`: the user must exist (`NotFound`); the present fields replace
   * the stored ones and the row with the user's id is overwritten. The id
   * never changes and the other rows are untouched.
   */
  function Update(users: seq<User>, userId: int, name: Option<string>, email: Option<string>)
    : (o: Outcome<seq<User>, User>)
    ensures o.result.Err? <==> forall u :: u in users ==> u.id != userId
    ensures o.result.Err? ==> o.result.error == NotFound && o.state == users
    ensures o.result.Ok? ==>
      && var updated := o.result.value;
      && (exists u :: u in users && u.id == userId
            && updated == User(userId, Patched(u.name, name), Patched(u.email, email)))
      && |o.state| == |users|
      && forall i :: 0 <= i < |users| ==> o.state[i] == if users[i].id == userId then updated else users[i]
    ensures UniqueKeys(users, UserId) ==> UniqueKeys(o.state, UserId)
  {
    match GetUserWithCheck(users, userId)
    case Err(e) => Outcome(users, Err(e))
    case Ok(user) =>
      var updated := User(user.id, Patched(user.name, name), Patched(user.email, email));
      assert exists i :: 0 <= i < |users| && users[i] == user;
      Outcome(Save(users, UserId, updated), Ok(updated))
  }

  /** `delete`: the user must exist (`NotFound`); then its row goes, the others stay, and the prior user is returned. */
  function Delete(users: seq<User>, id: int): (o: Outcome<seq<User>, User>)
    ensures o.result.Err? <==> forall u :: u in users ==> u.id != id
    ensures o.result.Err? ==> o.result.error == NotFound && o.state == users
    ensures o.result.Ok? ==>
      && o.result.value in users && o.result.value.id == id
      && forall u :: u in o.state <==> u in users && u.id != id
    ensures UniqueKeys(users, UserId) ==> UniqueKeys(o.state, UserId)
  {
    match GetUserWithCheck(users, id)
    case Err(e) => Outcome(users, Err(e))
    case Ok(user) => Outcome(Tables.Delete(users, UserId, id), Ok(user))
  }
}

=== FILE: src_item_storage.dfy ===
/**
 * `InMemoryItemStorage` of the first snapshot. Creation, update, the owner
 * filter and the search are the same code as the server's store and are the
 * `ItemStorage` functions; only the lookup, which answers with an optional
 * value instead of failing, and the deletion, which ignores a missing id,
 * differ.
 */
module SrcItemStorage {
  import opened Wrappers
  import opened Entities
  import opened Keyed
  import ItemStorage

  /** `get`: the stored item, or nothing, never an error. */
  function Get(items: map<int, Item>, id: int): (r: Option<Item>)
    ensures r.Some? <==> id in items
    ensures r.Some? ==> r.value == items[id]
  {
    if id in items then Some(items[id]) else None
  }

  /** `delete`: removes the key if present; a missing key leaves the store as it was. */
  function Delete(items: map<int, Item>, id: int): (r: map<int, Item>)
    ensures r.Keys == items.Keys - {id}
    ensures forall k :: k in r ==> r[k] == items[k]
    ensures id !in items ==> r == items
    ensures KeysMatch(items, ItemId) ==> KeysMatch(r, ItemId)
  {
    items - {id}
  }

  /** The optional lookup answers exactly what the failing lookup of the server's store answers. */
  lemma GetAgreesWithGetById(items: map<int, Item>, id: int)
    ensures Get(items, id).None? <==> GetById(items, id) == Err(NotFound)
    ensures Get(items, id).Some? ==> GetById(items, id) == Ok(Get(items, id).value)
  {
  }

  /** The silent deletion leaves the store the failing deletion of the server's store leaves. */
  lemma DeleteAgreesWithDeleteById(items: map<int, Item>, id: int)
    ensures Delete(items, id) == ItemStorage.DeleteById(items, id).state
  {
  }
}

=== FILE: tables.dfy ===
/**
 * The JPA repositories as tables: a sequence of rows, each with a primary key.
 * `findById` returns the row with the key, `save` updates the row with the
 * entity's key or inserts it, `deleteById` removes the row, and an identity
 * column hands out the next key.
 */
module Tables {
  import opened Wrappers
  import opened Seqs

  /** No two rows share a key: the primary-key constraint. */
  predicate UniqueKeys<T>(rows: seq<T>, key: T -> int) {
    forall i, j :: 0 <= i < j < |rows| ==> key(rows[i]) != key(rows[j])
  }

  /** Keeping some of the rows, in order, keeps their keys distinct. */
  lemma {:induction false} FilterUniqueKeys<T(!new)>(p: T -> bool, rows: seq<T>, key: T -> int)
    requires UniqueKeys(rows, key)
    ensures UniqueKeys(Filter(p, rows), key)
  {
    if rows != [] {
      var tail := rows[1..];
      assert UniqueKeys(tail, key) by {
        forall i, j | 0 <= i < j < |tail|
          ensures key(tail[i]) != key(tail[j])
        {
          assert tail[i] == rows[i + 1] && tail[j] == rows[j + 1];
        }
      }
      FilterUniqueKeys(p, tail, key);
      if p(rows[0]) {
        var rest := Filter(p, tail);
        FilterMembers(p, tail);
        var r := [rows[0]] + rest;
        forall i, j | 0 <= i < j < |r|
          ensures key(r[i]) != key(r[j])
        {
          var y := rest[j - 1];
          assert r[j] == y;
          if i == 0 {
            assert y in tail;
            var k :| 0 <= k < |tail| && tail[k] == y;
            assert rows[k + 1] == y;
          } else {
            assert r[i] == rest[i - 1];
          }
        }
      }
    }
  }

  /** Appending a row whose key no row has keeps the keys distinct. */
  lemma AppendUniqueKeys<T>(rows: seq<T>, key: T -> int, x: T)
    requires UniqueKeys(rows, key)
    requires forall i :: 0 <= i < |rows| ==> key(rows[i]) != key(x)
    ensures UniqueKeys(rows + [x], key)
  {
    var r := rows + [x];
    forall i, j | 0 <= i < j < |r|
      ensures key(r[i]) != key(r[j])
    {
      assert r[i] == rows[i];
    }
  }

  /** `findById`. */
  function Find<T(!new)>(rows: seq<T>, key: T -> int, id: int): (r: Option<T>)
    ensures r.Some? ==> r.value in rows && key(r.value) == id
    ensures r.None? <==> forall x :: x in rows ==> key(x) != id
  {
    FindWhere(x => key(x) == id, rows)
  }

  /** Under the primary-key constraint the row found is the only row with the key. */
  lemma FindUnique<T(!new)>(rows: seq<T>, key: T -> int, x: T)
    requires UniqueKeys(rows, key)
    requires x in rows
    ensures Find(rows, key, key(x)) == Some(x)
  {
    var y := Find(rows, key, key(x)).value;
    var i :| 0 <= i < |rows| && rows[i] == x;
    var j :| 0 <= j < |rows| && rows[j] == y;
    assert i == j;
  }

  /** `save`: overwrites the rows with the entity's key, or appends the entity when there is none. */
  function Save<T>(rows: seq<T>, key: T -> int, x: T): (r: seq<T>)
    ensures (exists i :: 0 <= i < |rows| && key(rows[i]) == key(x)) ==>
      && |r| == |rows|
      && forall i :: 0 <= i < |rows| ==> r[i] == if key(rows[i]) == key(x) then x else rows[i]
    ensures (forall i :: 0 <= i < |rows| ==> key(rows[i]) != key(x)) ==> r == rows + [x]
    ensures UniqueKeys(rows, key) ==> UniqueKeys(r, key)
  {
    assert UniqueKeys(rows, key) && (forall i :: 0 <= i < |rows| ==> key(rows[i]) != key(x))
      ==> UniqueKeys(rows + [x], key) by {
      if UniqueKeys(rows, key) && forall i :: 0 <= i < |rows| ==> key(rows[i]) != key(x) {
        AppendUniqueKeys(rows, key, x);
      }
    }
    if exists i :: 0 <= i < |rows| && key(rows[i]) == key(x) then Replace(rows, key, x) else rows + [x]
  }

  /** Every row with the key of `x` replaced by `x`. */
  function Replace<T>(rows: seq<T>, key: T -> int, x: T): (r: seq<T>)
    ensures |r| == |rows|
    ensures forall i :: 0 <= i < |rows| ==> r[i] == if key(rows[i]) == key(x) then x else rows[i]
  {
    seq(|rows|, i requires 0 <= i < |rows| => if key(rows[i]) == key(x) then x else rows[i])
  }

  /** `deleteById`: the rows with another key, in order; a missing key changes nothing. */
  function Delete<T(!new)>(rows: seq<T>, key: T -> int, id: int): (r: seq<T>)
    ensures forall x :: x in r <==> x in rows && key(x) != id
    ensures (forall x :: x in rows ==> key(x) != id) ==> r == rows
    ensures UniqueKeys(rows, key) ==> UniqueKeys(r, key)
  {
    assert UniqueKeys(rows, key) ==> UniqueKeys(Filter(x => key(x) != id, rows), key) by {
      if UniqueKeys(rows, key) {
        FilterUniqueKeys(x => key(x) != id, rows, key);
      }
    }
    FilterMembers(x => key(x) != id, rows);
    FilterAll(x => key(x) != id, rows);
    Filter(x => key(x) != id, rows)
  }

  /** The identity column: one above the largest key in the table, and 1 for an empty table. */
  function NextKey<T>(rows: seq<T>, key: T -> int): (id: int)
    ensures id >= 1
    ensures forall i :: 0 <= i < |rows| ==> key(rows[i]) < id
    ensures id == 1 || exists i :: 0 <= i < |rows| && key(rows[i]) == id - 1
  {
    if rows == [] then 1
    else
      var rest := NextKey(rows[1..], key);
      assert forall i :: 1 <= i < |rows| ==> rows[i] == rows[1..][i - 1];
      if key(rows[0]) + 1 > rest then key(rows[0]) + 1 else rest
  }
}

=== FILE: text.dfy ===
/**
 * The string operations the item search relies on: `String.toLowerCase`,
 * `String.contains` and `String.isBlank`, over the ASCII range.
 */
module Text {

  function LowerChar(c: char): char {
    if 'A' <= c <= 'Z' then (c as int + 32) as char else c
  }

  /** `toLowerCase`: every upper-case ASCII letter is replaced by its lower-case form. */
  function Lower(s: string): (r: string)
    ensures |r| == |s|
    ensures forall i :: 0 <= i < |s| ==> r[i] == LowerChar(s[i])
  {
    seq(|s|, i requires 0 <= i < |s| => LowerChar(s[i]))
  }

  /** `needle` occurs in `hay` starting at index `i`. */
  predicate OccursAt(hay: string, needle: string, i: int) {
    0 <= i && i + |needle| <= |hay| && hay[i..i + |needle|] == needle
  }

  /** `String.contains`: scans the start positions from `from` upwards. */
  function ContainsFrom(hay: string, needle: string, from: nat): (r: bool)
    ensures r <==> exists i :: from <= i && OccursAt(hay, needle, i)
    decreases |hay| - from
  {
    if from + |needle| > |hay| then false
    else if OccursAt(hay, needle, from) then true
    else ContainsFrom(hay, needle, from + 1)
  }

  /** `hay.contains(needle)`: some start position holds `needle`; the empty needle occurs everywhere. */
  function Contains(hay: string, needle: string): (r: bool)
    ensures r <==> exists i :: OccursAt(hay, needle, i)
  {
    ContainsFrom(hay, needle, 0)
  }

  /** `Character.isWhitespace` on the ASCII range. */
  predicate IsWhitespace(c: char) {
    c == ' ' || '\t' <= c <= '\r' || '\U{1C}' <= c <= '\U{1F}'
  }

  /** `String.isBlank`: empty, or white space only. */
  predicate IsBlank(s: string) {
    forall i :: 0 <= i < |s| ==> IsWhitespace(s[i])
  }

  lemma EmptyOccursEverywhere(hay: string)
    ensures Contains(hay, "")
  {
    assert OccursAt(hay, "", 0);
  }
}

=== FILE: timestamp.dfy ===
/**
 * The booking mapper's fixed timestamp pattern `yyyy-MM-dd'T'HH:mm:ss`: the
 * extended complete local date-time form of ISO 8601:2004 section 4.3.2,
 * without fraction or offset, always 19 characters `YYYY-MM-DDThh:mm:ss`.
 */
module Timestamp {
  import opened Wrappers
  import opened Calendar

  /** Total length of a rendered timestamp. */
  const Width: int := 19

  predicate IsDigit(c: char) {
    '0' <= c <= '9'
  }

  predicate AllDigits(s: string) {
    forall i :: 0 <= i < |s| ==> IsDigit(s[i])
  }

  function Digit(d: int): (c: char)
    requires 0 <= d <= 9
    ensures IsDigit(c)
  {
    ('0' as int + d) as char
  }

  function DigitValue(c: char): int
    requires IsDigit(c)
  {
    c as int - '0' as int
  }

  function Pow10(w: nat): nat {
    if w == 0 then 1 else 10 * Pow10(w - 1)
  }

  /** `n` in decimal, zero-padded on the left to exactly `width` digits. */
  function Padded(n: nat, width: nat): (s: string)
    ensures |s| == width && AllDigits(s)
  {
    if width == 0 then [] else Padded(n / 10, width - 1) + [Digit(n % 10)]
  }

  /** The number a string of decimal digits denotes. */
  function DecimalValue(s: string): nat
    requires AllDigits(s)
  {
    if |s| == 0 then 0 else DecimalValue(s[..|s| - 1]) * 10 + DigitValue(s[|s| - 1])
  }

  lemma {:induction false} ValueOfPadded(n: nat, width: nat)
    requires n < Pow10(width)
    ensures DecimalValue(Padded(n, width)) == n
  {
    if width > 0 {
      var p := Padded(n, width);
      assert p[..|p| - 1] == Padded(n / 10, width - 1);
      ValueOfPadded(n / 10, width - 1);
    }
  }

  lemma {:induction false} PaddedOfValue(s: string)
    requires AllDigits(s)
    ensures DecimalValue(s) < Pow10(|s|)
    ensures Padded(DecimalValue(s), |s|) == s
  {
    if |s| > 0 {
      var init := s[..|s| - 1];
      PaddedOfValue(init);
      var v := DecimalValue(s);
      assert v / 10 == DecimalValue(init) && v % 10 == DigitValue(s[|s| - 1]);
      assert s == init + [s[|s| - 1]];
    }
  }

  /** Positions of the fixed separator characters of the pattern. */
  predicate IsSeparatorPosition(i: int) {
    i == 4 || i == 7 || i == 10 || i == 13 || i == 16
  }

  /** The shape `YYYY-MM-DDThh:mm:ss`: separators in place, digits everywhere else. */
  predicate WellShaped(s: string) {
    && |s| == Width
    && s[4] == '-' && s[7] == '-' && s[10] == 'T' && s[13] == ':' && s[16] == ':'
    && forall i :: 0 <= i < Width && !IsSeparatorPosition(i) ==> IsDigit(s[i])
  }

  /** Six numbers, each small enough to be written in its field of the pattern. */
  predicate Fits(raw: DateTime) {
    && 0 <= raw.year < 10000 && 0 <= raw.month < 100 && 0 <= raw.day < 100
    && 0 <= raw.hour < 100 && 0 <= raw.minute < 100 && 0 <= raw.second < 100
  }

  /** The six numbers written, zero-padded, into the pattern; nothing checks that they form a date. */
  function Render(raw: DateTime): (s: string)
    requires Fits(raw)
    ensures WellShaped(s)
  {
    Padded(raw.year, 4) + "-" + Padded(raw.month, 2) + "-" + Padded(raw.day, 2) + "T"
    + Padded(raw.hour, 2) + ":" + Padded(raw.minute, 2) + ":" + Padded(raw.second, 2)
  }

  /** `DateTimeFormatter.format` with the fixed pattern. */
  function Format(dt: DateTime): (s: string)
    requires Valid(dt)
    ensures WellShaped(s)
  {
    Render(dt)
  }

  /** The number written in `s[from..to]` of a well-shaped string. */
  function Field(s: string, from: int, to: int): nat
    requires WellShaped(s)
    requires 0 <= from <= to <= Width
    requires forall i :: from <= i < to ==> !IsSeparatorPosition(i)
  {
    assert AllDigits(s[from..to]) by {
      forall i | 0 <= i < to - from
        ensures IsDigit(s[from..to][i])
      {
        assert s[from..to][i] == s[from + i];
      }
    }
    DecimalValue(s[from..to])
  }

  /** The six numbers a well-shaped string writes, before any range check. */
  function RawFields(s: string): DateTime
    requires WellShaped(s)
  {
    DateTime(Field(s, 0, 4), Field(s, 5, 7), Field(s, 8, 10),
             Field(s, 11, 13), Field(s, 14, 16), Field(s, 17, 19))
  }

  /** A well-shaped string whose fields, as written, already form a valid date-time. */
  predicate Canonical(s: string) {
    WellShaped(s) && Valid(RawFields(s))
  }

  predicate IsLastDayOfRange(dt: DateTime) {
    dt.year == 9999 && dt.month == 12 && dt.day == 31
  }

  /**
   * The `SMART` resolution `java.time` applies to the pattern's fields: each
   * field must lie in its own range (day of month 1..31, hour of day 0..24),
   * a day past the end of its month becomes the month's last day, and
   * 24:00:00 is the end of the day, that is, midnight starting the next one.
   * Anything else fails. The end of the last day of 9999 would be a date of
   * year 10000, outside the modelled calendar, and fails here too.
   */
  function Resolve(raw: DateTime): (r: Option<DateTime>)
    ensures r.Some? ==> Valid(r.value)
  {
    if !(&& 1 <= raw.year <= 9999 && 1 <= raw.month <= 12 && 1 <= raw.day <= 31
         && 0 <= raw.hour <= 24 && 0 <= raw.minute < 60 && 0 <= raw.second < 60)
    then None
    else
      var last := DaysInMonth(raw.year, raw.month);
      var date := raw.(day := if raw.day <= last then raw.day else last);
      if raw.hour < 24 then Some(date)
      else if raw.minute != 0 || raw.second != 0 || IsLastDayOfRange(date) then None
      else
        var midnight := date.(hour := 0);
        NextDayNumber(midnight);
        Some(NextDay(midnight))
  }

  /**
   * `LocalDateTime.parse` with the fixed pattern, restricted to the
   * 19-character shape with an unsigned four-digit year: the string must have
   * that shape and its fields must resolve. `java.time` also reads a year
   * written as '+' and five or more digits, which this model refuses.
   */
  function Parse(s: string): (r: Option<DateTime>)
    ensures r.Some? ==> WellShaped(s) && Valid(r.value)
  {
    if !WellShaped(s) then None else Resolve(RawFields(s))
  }

  /** Fields that already form a valid date-time resolve to themselves. */
  lemma ResolveValid(raw: DateTime)
    requires Valid(raw)
    ensures Resolve(raw) == Some(raw)
  {
  }

  /**
   * Before the end of the day, resolution keeps the written year, month and
   * time and the written day when the month has it; a later day becomes the
   * month's last day.
   */
  lemma ResolveClampsDay(raw: DateTime)
    ensures Resolve(raw).Some? && raw.hour < 24 ==>
      var dt := Resolve(raw).value;
      && dt.year == raw.year && dt.month == raw.month
      && dt.hour == raw.hour && dt.minute == raw.minute && dt.second == raw.second
      && (raw.day <= DaysInMonth(raw.year, raw.month) ==> dt.day == raw.day)
      && (raw.day > DaysInMonth(raw.year, raw.month) ==> dt.day == DaysInMonth(raw.year, raw.month))
  {
  }

  /** 24:00:00 lies exactly one day after 00:00:00 of the same written date. */
  lemma ResolveEndOfDay(raw: DateTime)
    ensures Resolve(raw).Some? && raw.hour == 24 ==>
      && Resolve(raw.(hour := 0)).Some?
      && ToInstant(Resolve(raw).value) == ToInstant(Resolve(raw.(hour := 0)).value) + SecondsPerDay
  {
    if Resolve(raw).Some? && raw.hour == 24 {
      var midnight := Resolve(raw.(hour := 0)).value;
      NextDayNumber(midnight);
      assert Resolve(raw).value == NextDay(midnight);
    }
  }

  lemma RenderSlices(raw: DateTime)
    requires Fits(raw)
    ensures var s := Render(raw);
      && s[0..4] == Padded(raw.year, 4) && s[5..7] == Padded(raw.month, 2)
      && s[8..10] == Padded(raw.day, 2) && s[11..13] == Padded(raw.hour, 2)
      && s[14..16] == Padded(raw.minute, 2) && s[17..19] == Padded(raw.second, 2)
  {
  }

  /** The fields read back from a rendering are the numbers written. */
  lemma RawFieldsOfRender(raw: DateTime)
    requires Fits(raw)
    ensures RawFields(Render(raw)) == raw
  {
    RenderSlices(raw);
    ValueOfPadded(raw.year, 4);
    ValueOfPadded(raw.month, 2);
    ValueOfPadded(raw.day, 2);
    ValueOfPadded(raw.hour, 2);
    ValueOfPadded(raw.minute, 2);
    ValueOfPadded(raw.second, 2);
  }

  /** Parsing any six written numbers gives their resolution. */
  lemma ParseRender(raw: DateTime)
    requires Fits(raw)
    ensures Parse(Render(raw)) == Resolve(raw)
  {
    RawFieldsOfRender(raw);
  }

  /** Every valid date-time survives formatting and parsing back. */
  lemma ParseFormat(dt: DateTime)
    requires Valid(dt)
    ensures Parse(Format(dt)) == Some(dt)
  {
    ParseRender(dt);
  }

  lemma FieldPadded(s: string, from: int, to: int)
    requires WellShaped(s)
    requires 0 <= from <= to <= Width
    requires forall i :: from <= i < to ==> !IsSeparatorPosition(i)
    ensures Padded(Field(s, from, to), to - from) == s[from..to]
  {
    var part := s[from..to];
    assert AllDigits(part) by {
      forall i | 0 <= i < to - from
        ensures IsDigit(part[i])
      {
        assert part[i] == s[from + i];
      }
    }
    PaddedOfValue(part);
  }

  /** A well-shaped string is its six digit fields joined by the pattern's separators. */
  lemma ShapeDecomposition(s: string)
    requires WellShaped(s)
    ensures s == s[0..4] + "-" + s[5..7] + "-" + s[8..10] + "T" + s[11..13] + ":" + s[14..16] + ":" + s[17..19]
  {
    var joined := s[0..4] + "-" + s[5..7] + "-" + s[8..10] + "T" + s[11..13] + ":" + s[14..16] + ":" + s[17..19];
    assert |joined| == |s|;
    forall i | 0 <= i < |s|
      ensures joined[i] == s[i]
    {
    }
  }

  /** Every well-shaped string is the rendering of the numbers it writes. */
  lemma RenderRawFields(s: string)
    requires WellShaped(s)
    ensures Fits(RawFields(s)) && Render(RawFields(s)) == s
  {
    FieldPadded(s, 0, 4);
    FieldPadded(s, 5, 7);
    FieldPadded(s, 8, 10);
    FieldPadded(s, 11, 13);
    FieldPadded(s, 14, 16);
    FieldPadded(s, 17, 19);
    var raw := RawFields(s);
    PaddedOfValue(s[0..4]);
    PaddedOfValue(s[5..7]);
    PaddedOfValue(s[8..10]);
    PaddedOfValue(s[11..13]);
    PaddedOfValue(s[14..16]);
    PaddedOfValue(s[17..19]);
    ShapeDecomposition(s);
  }

  /**
   * A string that parses is the rendering of what it parses to exactly when it
   * is canonical: a clamped day or a 24:00:00 renders differently.
   */
  lemma FormatParse(s: string)
    requires Parse(s).Some?
    ensures Format(Parse(s).value) == s <==> Canonical(s)
  {
    var dt := Parse(s).value;
    if Canonical(s) {
      RenderRawFields(s);
    }
    if Format(dt) == s {
      RawFieldsOfRender(dt);
    }
  }

  /** The renderings of valid date-times are exactly the canonical strings, each parsing to its date-time. */
  lemma ParseIffFormat(s: string, dt: DateTime)
    ensures Valid(dt) && Format(dt) == s <==> Canonical(s) && Parse(s) == Some(dt)
  {
    if Valid(dt) && Format(dt) == s {
      RawFieldsOfRender(dt);
    }
    if Canonical(s) && Parse(s) == Some(dt) {
      RenderRawFields(s);
    }
  }

  /** Day 30 of February 2023 reads as its 28th; the end of that day reads as the first of March. */
  lemma ResolverExamples()
    ensures Parse(Render(DateTime(2023, 2, 30, 10, 0, 0))) == Some(DateTime(2023, 2, 28, 10, 0, 0))
    ensures Parse(Render(DateTime(2023, 2, 28, 24, 0, 0))) == Some(DateTime(2023, 3, 1, 0, 0, 0))
    ensures Parse(Render(DateTime(2023, 2, 28, 24, 0, 1))).None?
    ensures Parse(Render(DateTime(2023, 2, 32, 10, 0, 0))).None?
  {
    ParseRender(DateTime(2023, 2, 30, 10, 0, 0));
    ParseRender(DateTime(2023, 2, 28, 24, 0, 0));
    ParseRender(DateTime(2023, 2, 28, 24, 0, 1));
    ParseRender(DateTime(2023, 2, 32, 10, 0, 0));
  }

  /** A booking instant rendered with the pattern. */
  function FormatInstant(t: Instant): (s: string)
    ensures WellShaped(s)
  {
    Format(FromInstant(t))
  }

  /** A timestamp string read as a booking instant. */
  function ParseInstant(s: string): (r: Option<Instant>)
    ensures r.Some? ==> WellShaped(s)
    ensures r.None? <==> Parse(s).None?
  {
    match Parse(s)
    case None => None
    case Some(dt) => Some(ToInstant(dt))
  }

  lemma ParseFormatInstant(t: Instant)
    ensures ParseInstant(FormatInstant(t)) == Some(t)
  {
    ParseFormat(FromInstant(t));
  }

  /** An instant read from a string renders back as that string exactly when the string is canonical. */
  lemma FormatParseInstant(s: string)
    ensures ParseInstant(s).Some? ==> (FormatInstant(ParseInstant(s).value) == s <==> Canonical(s))
  {
    if ParseInstant(s).Some? {
      var dt := Parse(s).value;
      FromToInstant(dt);
      FormatParse(s);
    }
  }
}

=== FILE: user_service.dfy ===
/**
 * `UserServiceImpl` of the first snapshot: creating, reading, partially
 * updating and deleting users over the in-memory user store, keeping email
 * addresses unique. The service reads the store through its `Optional`
 * interface: a lookup that finds nothing is an empty answer, not an error.
 */
module UserService {
  import opened Wrappers
  import opened Entities
  import opened Keyed
  import opened UserStorage

  /** No two stored users share an email. */
  predicate DistinctEmails(users: map<int, User>) {
    forall a, b :: a in users && b in users && users[a].email == users[b].email ==> a == b
  }

  /** Storing `u` under `k` keeps emails distinct when no other key holds its email. */
  lemma DistinctAfterPut(users: map<int, User>, k: int, u: User)
    ensures DistinctEmails(users) && (forall j :: j in users && j != k ==> users[j].email != u.email)
      ==> DistinctEmails(users[k := u])
  {
    if DistinctEmails(users) && forall j :: j in users && j != k ==> users[j].email != u.email {
      var after := users[k := u];
      forall a, b | a in after && b in after && after[a].email == after[b].email
        ensures a == b
      {
        if a != k && b != k {
          assert after[a] == users[a] && after[b] == users[b];
        }
      }
    }
  }

  /** Some user other than `self` holds the email. */
  predicate EmailTakenByOther(users: map<int, User>, email: string, self: Option<int>) {
    exists k :: k in users && users[k].email == email && Some(users[k].id) != self
  }

  /** `getUserWithExistingCheck` and `get`. */
  function Get(users: map<int, User>, id: int): (r: Result<User, Error>)
    ensures r.Ok? <==> id in users
    ensures r.Ok? ==> r.value == users[id]
    ensures r.Err? ==> r.error == NotFound
  {
    match GetById(users, id)
    case Ok(u) => Ok(u)
    case Err(_) => Err(NotFound)
  }

  /**
   * `checkEmailRepeat`: fails `EmailRepeated` when the holder of the email is
   * another user. `self` is the id of the user being saved; a user not yet
   * saved has none, so any holder is another user.
   */
  function CheckEmailRepeat(users: map<int, User>, email: string, self: Option<int>): (r: Result<(), Error>)
    ensures r.Err? ==> r.error == EmailRepeated && EmailTakenByOther(users, email, self)
    ensures DistinctEmails(users) ==> (r.Err? <==> EmailTakenByOther(users, email, self))
    ensures self.None? ==> (r.Err? <==> exists k :: k in users && users[k].email == email)
  {
    match GetByEmail(users, email)
    case Err(_) => Ok(())
    case Ok(holder) =>
      if Some(holder.id) != self then Err(EmailRepeated) else Ok(())
  }

  /**
   * `create`: fails `EmailRepeated` when any stored user has the email, and
   * changes nothing then; otherwise stores the user under a fresh id and
   * leaves every stored user as it was.
   */
  function Create(users: map<int, User>, name: string, email: string): (o: Outcome<map<int, User>, User>)
    ensures o.result.Err? <==> exists k :: k in users && users[k].email == email
    ensures o.result.Err? ==> o.result.error == EmailRepeated && o.state == users
    ensures o.result.Ok? ==>
      var created := o.result.value;
      && created.id !in users
      && created.name == name && created.email == email
      && o.state.Keys == users.Keys + {created.id}
      && o.state[created.id] == created
      && forall k :: k in users ==> o.state[k] == users[k]
    ensures KeysMatch(users, UserId) ==> KeysMatch(o.state, UserId)
    ensures DistinctEmails(users) ==> DistinctEmails(o.state)
  {
    match CheckEmailRepeat(users, email, None)
    case Err(e) => Outcome(users, Err(e))
    case Ok(_) =>
      var o := UserStorage.Create(users, User(0, name, email));
      DistinctAfterPut(users, o.result.value.id, o.result.value);
      o
  }

  /**
   * `update`: the user must exist (`NotFound`); a new email must not belong to
   * another user (`EmailRepeated`); then the present fields replace the stored
   * ones and the user is stored again under its id. Nothing changes on failure.
   */
  function Update(users: map<int, User>, userId: int, name: Option<string>, email: Option<string>)
    : (o: Outcome<map<int, User>, User>)
    ensures o.result.Err? ==> o.state == users
    ensures o.result == Err(NotFound) <==> userId !in users
    ensures o.result.Err? ==> o.result.error == NotFound || o.result.error == EmailRepeated
    ensures o.result == Err(EmailRepeated) ==>
      userId in users && email.Some? && EmailTakenByOther(users, email.value, Some(users[userId].id))
    ensures DistinctEmails(users) && userId in users && o.result.Err? ==>
      email.Some? && EmailTakenByOther(users, email.value, Some(users[userId].id))
    ensures o.result.Ok? ==>
      && userId in users
      && o.result.value == User(users[userId].id, Patched(users[userId].name, name), Patched(users[userId].email, email))
      && o.state == users[o.result.value.id := o.result.value]
    ensures KeysMatch(users, UserId) ==> KeysMatch(o.state, UserId)
    ensures KeysMatch(users, UserId) && DistinctEmails(users) ==> DistinctEmails(o.state)
  {
    match Get(users, userId)
    case Err(e) => Outcome(users, Err(e))
    case Ok(user) =>
      var check := if email.Some? then CheckEmailRepeat(users, email.value, Some(user.id)) else Ok(());
      if check.Err? then Outcome(users, Err(check.error))
      else
        var updated := User(user.id, Patched(user.name, name), Patched(user.email, email));
        DistinctAfterPut(users, user.id, updated);
        Outcome(UserStorage.Update(users, updated), Ok(updated))
  }

  /** With distinct emails, a stored user is the only holder of its email. */
  lemma OnlyHolder(users: map<int, User>, userId: int)
    requires KeysMatch(users, UserId) && DistinctEmails(users)
    requires userId in users
    ensures !EmailTakenByOther(users, users[userId].email, Some(userId))
  {
  }

  /** A user may always resubmit their own email. */
  lemma KeepingOwnEmailNeverConflicts(users: map<int, User>, userId: int, name: Option<string>)
    requires KeysMatch(users, UserId) && DistinctEmails(users)
    requires userId in users
    ensures Update(users, userId, name, Some(users[userId].email)).result.Ok?
  {
    OnlyHolder(users, userId);
  }

  /** `delete`: the user must exist (`NotFound`); then exactly that entry is removed and the prior user returned. */
  function Delete(users: map<int, User>, id: int): (o: Outcome<map<int, User>, User>)
    ensures o.result.Err? <==> id !in users
    ensures o.result.Err? ==> o.result.error == NotFound && o.state == users
    ensures o.result.Ok? ==>
      && o.result.value == users[id]
      && o.state.Keys == users.Keys - {id}
      && forall k :: k in o.state ==> o.state[k] == users[k]
    ensures KeysMatch(users, UserId) ==> KeysMatch(o.state, UserId)
    ensures DistinctEmails(users) ==> DistinctEmails(o.state)
  {
    match Get(users, id)
    case Err(e) => Outcome(users, Err(e))
    case Ok(user) => Outcome(DeleteById(users, id).state, Ok(user))
  }
}

=== FILE: user_storage.dfy ===
/**
 * `InMemoryUserStorage`: users in a `HashMap<Long, User>` keyed by id. A new
 * user gets the largest id in use plus one; lookups and deletion of a missing
 * id fail `NotFound`; a lookup by email returns the first holder met while
 * iterating over the values.
 */
module UserStorage {
  import opened Wrappers
  import opened Seqs
  import opened Keyed
  import opened Entities

  /** `create`: a copy of `user` under a fresh id; the entries already stored are untouched. */
  function Create(users: map<int, User>, user: User): (o: Outcome<map<int, User>, User>)
    ensures o.result.Ok?
    ensures var created := o.result.value;
      && created.id !in users
      && (forall k :: k in users ==> k < created.id)
      && (users == map[] ==> created.id == 1)
      && (users != map[] ==> created.id - 1 in users)
      && created.name == user.name && created.email == user.email
      && o.state.Keys == users.Keys + {created.id}
      && o.state[created.id] == created
      && forall k :: k in users ==> o.state[k] == users[k]
    ensures KeysMatch(users, UserId) ==> KeysMatch(o.state, UserId)
  {
    var created := user.(id := NewId(users.Keys));
    Outcome(users[created.id := created], Ok(created))
  }

  /** `update`: stores `user` under its id, inserting or overwriting; every other entry is untouched. */
  function Update(users: map<int, User>, user: User): (r: map<int, User>)
    ensures r.Keys == users.Keys + {user.id}
    ensures r[user.id] == user
    ensures forall k :: k in users && k != user.id ==> r[k] == users[k]
    ensures KeysMatch(users, UserId) ==> KeysMatch(r, UserId)
  {
    users[user.id := user]
  }

  function EmailIs(email: string): User -> bool {
    (u: User) => u.email == email
  }

  /** `getByEmail`: the first user with the email in iteration order, or `NotFound` when nobody has it. */
  function GetByEmail(users: map<int, User>, email: string): (r: Result<User, Error>)
    ensures r.Ok? ==> Stored(users, r.value) && r.value.email == email
    ensures r.Err? <==> forall k :: k in users ==> users[k].email != email
    ensures r.Err? ==> r.error == NotFound
  {
    NoneInKeyOrder(users, EmailIs(email));
    match FindWhere(EmailIs(email), ValuesInKeyOrder(users))
    case Some(u) => Ok(u)
    case None => Err(NotFound)
  }

  /** `deleteById`: a missing id fails `NotFound` and changes nothing; otherwise exactly that key goes. */
  function DeleteById(users: map<int, User>, id: int): (o: Outcome<map<int, User>, ()>)
    ensures o.result.Err? <==> id !in users
    ensures o.result.Err? ==> o.result.error == NotFound && o.state == users
    ensures o.result.Ok? ==>
      && o.state.Keys == users.Keys - {id}
      && forall k :: k in o.state ==> o.state[k] == users[k]
    ensures KeysMatch(users, UserId) ==> KeysMatch(o.state, UserId)
  {
    if id !in users then Outcome(users, Err(NotFound))
    else Outcome(users - {id}, Ok(()))
  }

  /** With every user under its own id, the user found by email is the holder with the smallest id. */
  lemma GetByEmailFindsSmallestId(users: map<int, User>, email: string)
    requires KeysMatch(users, UserId)
    requires GetByEmail(users, email).Ok?
    ensures forall k :: k in users && users[k].email == email ==> GetByEmail(users, email).value.id <= k
  {
    var ks := KeysInOrder(users.Keys);
    var vs := ValuesInKeyOrder(users);
    var i := IndexWhere(EmailIs(email), vs).value;
    assert i < |ks| && ks[i] in users && forall k :: k in users && users[k].email == email ==> ks[i] <= k by {
      FirstInKeyOrderSmallest(users, EmailIs(email), i);
      forall k | k in users && users[k].email == email
        ensures ks[i] <= k
      {
        assert EmailIs(email)(users[k]);
      }
    }
    var found := users[ks[i]];
    assert GetByEmail(users, email).value == found by {
      assert GetByEmail(users, email).value == vs[i];
    }
    assert found.id == ks[i] by {
      assert UserId(found) == ks[i];
    }
  }
}

=== FILE: wrappers.dfy ===
/** Failure-compatible wrappers used for the source's nullable values and exceptions. */
module Wrappers {

  /** A value that may be absent: Java's `Optional` and nullable references. */
  datatype Option<+T> = None | Some(value: T)

  /** Either a value or an error: a Java method that returns or throws. */
  datatype Result<+T, +E> = Ok(value: T) | Err(error: E) {

    predicate IsFailure() {
      Err?
    }

    function PropagateFailure<U>(): Result<U, E>
      requires Err?
    {
      Err(error)
    }

    function Extract(): T
      requires Ok?
    {
      value
    }
  }
}
